=== FILE: README.md ===
# Clinic portal core, modelled in Dafny

This project models the client-side logic of a small clinic portal (a React single-page
application). Patients book appointments with doctors and cancel them. Doctors confirm,
reject and complete appointments and write prescriptions. An administrator sees system-wide
counters and lists of doctors and patients.

All state lives in two in-memory stores:

- the appointment/doctor/prescription store (`AppContext`);
- the authentication store (`AuthContext`).

The model treats every page as a function of these stores, the signed-in user and the clock.
Two things in the program break that picture, and the model leaves both out (see "Left out"):
the admin dashboard sorts the stores' own arrays in place, and the Add Prescription button
reloads the whole application. The modules are:

- `Types`: the entities (user, doctor with weekly time slots, appointment, prescription), the
  status names, weekdays and the clock.
- `AppContext`: the four store updates. `Lifecycle`: the status changes the page buttons
  allow, and what a session of button presses can do to the store.
- `BookAppointment`, `DoctorAppointments`, `PatientAppointments`, `AppointmentViews`: booking
  (doctor search, the 14-day date list, the half-hour time grid, submission), and the two
  appointment lists with their status filter, sort order and counters.
- `DoctorDashboard`, `PatientDashboard`, `AdminDashboard`: the three dashboards.
- `AdminDoctorManagement`, `AdminPatientManagement`: the administrator's lists. For patients
  this covers the per-patient appointment count built by a loop over the query rows.
- `PrescriptionViews`, `PatientPrescriptions`, `DoctorPrescriptions`: prescription search and
  order, the prescription form, and the line layout of the downloadable PDF.
- `AuthContext`, `ProtectedRoute`, `AppRoutes`, `Layout`: login, registration and the session;
  the route guard, the route table and the navigation links.
- `Seqs`, `Text`, `Wrappers`: generic helpers.
  - `Seqs`: filter, stable sort, prefix.
  - `Text`: trim, ASCII lower-casing, `includes`, split and join, digit strings.
  - `Wrappers`: `Option` and `Result`.

How the model represents the source:

- **Dates** are day numbers, with day 0 being Thursday 1 January 1970.
- **The current moment** is a `Clock` holding a day and the milliseconds into it. A date
  string `new Date("yyyy-MM-dd")` is the midnight of its day.
- **Array sorting** is a stable insertion sort over the page's comparator.
- **Thrown errors** become `None` or `Failure`. A search over prescriptions that lack a name
  is an example: there `toLowerCase` throws.

Details of the code that the model keeps as they are:

- Only the hour of a slot's start and end time is read.
- Only the first slot declared for a weekday counts.
- No half-hour time is offered in the last hour of a slot. A 09:00–11:00 slot yields
  09:00, 09:30 and 10:00.
- The administrator has no way to change an appointment's status. The admin appointment
  page is a placeholder.

## Model

| member | source | states |
|---|---|---|
| Types.StatusNameRoundTrip | src/types/index.ts:38 | the five status names are distinct: parsing a status's name gives the status back |
| Types.NotAfterNow | src/pages/DoctorAppointments.tsx:174 | `new Date(date) <= new Date()` holds exactly when the date is today or earlier |
| Types.NotBeforeNow | src/pages/PatientDashboard.tsx:14 | `new Date(date) >= new Date()` holds exactly when the date is after today, or is today at exactly midnight |
| Types.DayOfWeek | src/pages/BookAppointment.tsx:36 | day 0 (1 January 1970) is a Thursday, and a date falls on Saturday or Sunday exactly when its day number is 2 or 3 modulo 7 |
| Types.WeekdayName | src/pages/BookAppointment.tsx:36 | every weekday is named by one of the seven English names `format(date, 'EEEE')` produces |
| Types.WeekdayNamesDistinct | src/pages/BookAppointment.tsx:36 | two weekdays have the same name exactly when they are the same weekday, so a slot's day names a single weekday |
| Types.WeekdayRepeatsWeekly | src/pages/BookAppointment.tsx:36 | the weekday of a date repeats every seven days and differs on consecutive days, so the fourteen dates of the booking list cover each weekday twice |
| AppContext.AddAppointment | src/contexts/AppContext.tsx:94-101 | one record is appended, carrying the given fields, id and timestamp; the existing records are unchanged |
| AppContext.AddFreshIdKeepsUnique | src/contexts/AppContext.tsx:94-101 | appending a record whose id is fresh keeps ids unique |
| AppContext.UpdateAppointment | src/contexts/AppContext.tsx:103-107 | every record with that id gets the patch merged in, every other record is unchanged, length is kept |
| AppContext.UpdateMissingId | src/contexts/AppContext.tsx:103-107 | an update for an id no record has leaves the store unchanged |
| AppContext.UpdateChecksNoTransition | src/contexts/AppContext.tsx:103-107 | the store writes any status into any record: it does not check the current status |
| AppContext.StatusUpdateKeepsIds | src/contexts/AppContext.tsx:103-107 | a status update changes no id, so unique ids stay unique |
| AppContext.AddPrescription | src/contexts/AppContext.tsx:109-116 | one prescription is appended with the given fields, id and timestamp; the others are unchanged |
| AppContext.UpdateDoctorAvailability | src/contexts/AppContext.tsx:118-122 | the doctors with that id get the new slots and leave days and nothing else changes; other doctors are unchanged |
| Lifecycle.PatientActions | src/pages/PatientAppointments.tsx:44-46 | the patient is offered Cancel exactly when the appointment is pending or confirmed, and nothing else |
| Lifecycle.CanCancel | src/pages/PatientAppointments.tsx:44-46 | a patient may cancel exactly the appointments that are not yet rejected, cancelled or completed |
| Lifecycle.DoctorActions | src/pages/DoctorAppointments.tsx:155-192 | Confirm and Reject are shown exactly on a pending appointment, Complete exactly on a confirmed one whose date has begun, Add Prescription exactly on a completed one, and never Cancel |
| Lifecycle.CanTransition | src/pages/DoctorAppointments.tsx:155-192 | any offered status change starts from a non-terminal status and writes a different status that is not pending |
| Lifecycle.TransitionTable | src/pages/DoctorAppointments.tsx:155-192 | a status change is offered exactly for: a doctor confirming or rejecting a pending appointment; a doctor completing a confirmed one dated today or earlier; a patient cancelling a pending or confirmed one |
| Lifecycle.TerminalStaysTerminal | src/pages/DoctorAppointments.tsx:155-192 | no role is offered a change out of rejected, cancelled or completed |
| Lifecycle.CompletedOffersOnlyPrescription | src/pages/DoctorAppointments.tsx:184-192 | on a completed appointment the only button is Add Prescription, which writes no status (it navigates by a full page load, which is not modelled) |
| Lifecycle.NothingReturnsToPending | src/pages/DoctorAppointments.tsx:155-192 | no button sets an appointment back to pending |
| Lifecycle.Press | src/pages/DoctorAppointments.tsx:44-68 | a press succeeds exactly when the appointment is on the user's list and the button is rendered for its status; the store keeps its length |
| Lifecycle.PressKeepsTerminalRecords | src/pages/DoctorAppointments.tsx:44-68 | with unique ids, a rendered button never alters a record in a terminal status, and ids stay unique |
| Lifecycle.RunKeepsTerminalRecords | src/pages/PatientAppointments.tsx:48-52 | within one page load, over any sequence of presses by any users, records in a terminal status never change |
| Lifecycle.SharedIdRewritesTerminalRecord | src/contexts/AppContext.tsx:97 | with two records sharing an id (two bookings in one millisecond), confirming the pending one also rewrites the completed one |
| BookAppointment.FilteredDoctors | src/pages/BookAppointment.tsx:23-28 | a doctor is listed exactly when the name or specialization contains the term ignoring case, the specialization matches when one is chosen, and the doctor is active; store order is kept |
| BookAppointment.EmptySearchListsActive | src/pages/BookAppointment.tsx:23-28 | with no term and no specialization, exactly the active doctors are listed |
| BookAppointment.FindSlot | src/pages/BookAppointment.tsx:53 | finds a slot exactly when one is declared for that weekday, and then it is the first such slot |
| BookAppointment.ParseHour | src/pages/BookAppointment.tsx:58-59 | an hour is read exactly when the time string starts with a digit; otherwise `parseInt` gives NaN and no hour |
| BookAppointment.AvailableDates | src/pages/BookAppointment.tsx:30-49 | at most 14 dates, strictly ascending; a date is listed exactly when it is 1 to 14 days ahead, its weekday has a slot, it is not a leave day and not a weekend |
| BookAppointment.WeekendSlotsYieldNothing | src/pages/BookAppointment.tsx:40-43 | a doctor whose slots are all on Saturday or Sunday is never offered a date |
| BookAppointment.Grid | src/pages/BookAppointment.tsx:61-66 | the time grid of hours s to e has 2(e−s)−1 points, strictly ascending, exactly the on-grid half hours |
| BookAppointment.FormatTimeRoundTrip | src/pages/BookAppointment.tsx:62-64 | a whole or half hour rendered as "HH:MM" parses back to the same time, and its hour parses back to the hour |
| BookAppointment.SlotTimesSpec | src/pages/BookAppointment.tsx:57-66 | a slot from hour s to hour e yields 2(e−s)−1 times, each on the grid, strictly ascending |
| BookAppointment.SlotTimesComplete | src/pages/BookAppointment.tsx:57-66 | every on-grid half hour of the slot is offered |
| BookAppointment.NoHalfHourAtEnd | src/pages/BookAppointment.tsx:63-65 | the half hour that starts in the slot's last hour is never offered |
| BookAppointment.FirstSlotOnly | src/pages/BookAppointment.tsx:51-58 | the times offered on a date come from the first slot declared for its weekday only |
| BookAppointment.NoSlotNoTimes | src/pages/BookAppointment.tsx:55 | no slot for the weekday means no times |
| BookAppointment.OfferedDateHasSlot | src/pages/BookAppointment.tsx:40-53 | every date offered has a slot to take times from |
| BookAppointment.AvailableTimes | src/pages/BookAppointment.tsx:51-69 | no slot for the date's weekday gives no times; otherwise the times are those of a slot declared for that weekday |
| BookAppointment.NineToElevenExample | src/pages/BookAppointment.tsx:57-66 | a 09:00–11:00 slot offers exactly 09:00, 09:30 and 10:00 |
| BookAppointment.SubmitBooking | src/pages/BookAppointment.tsx:79-98 | the booking is stored exactly when a doctor, a date and a time are chosen and the reason is not blank; the new record is pending and carries the patient, doctor, date, time and reason given |
| AppointmentViews.ByStatusKey | src/pages/DoctorAppointments.tsx:14-16 | key "all" keeps the list as it is; any other key keeps exactly the appointments with that status name, in order |
| AppointmentViews.Counts | src/pages/DoctorAppointments.tsx:70-77 | each of the six counters is the length of the list its filter button shows, and the five status counters add up to the "all" counter |
| AppointmentViews.ButtonCountMatchesList | src/pages/PatientAppointments.tsx:54-61 | the number on a status button is the length of the list that button shows |
| AppointmentViews.StatusColor | src/pages/PatientAppointments.tsx:22-31 | confirmed is green, pending yellow, rejected red, cancelled grey, completed blue; an unknown status falls to the default grey |
| AppointmentViews.ColoursTellStatusesApart | src/pages/PatientAppointments.tsx:22-31 | two statuses get the same badge exactly when they are the same status; an unknown status gets the cancelled badge |
| AppointmentViews.DashboardStatusColor | src/pages/DoctorDashboard.tsx:24-32 | confirmed is green, pending yellow, rejected red, and every other status, completed included, is grey |
| AppointmentViews.DashboardColorDiffersOnlyOnCompleted | src/pages/DoctorDashboard.tsx:24-32 | the doctor's and patient's dashboards colour every status as the appointment pages do, except completed, which falls to grey |
| AppointmentViews.StatusIcon | src/pages/PatientAppointments.tsx:33-42 | confirmed and completed show ✓, pending ⏳, rejected ✗, cancelled ⊘; exactly an unknown status gets "?" |
| AppointmentViews.IconsTellStatusesApart | src/pages/PatientAppointments.tsx:33-42 | two statuses get the same icon exactly when they are the same status or are confirmed and completed |
| AppointmentViews.LabelOf | src/pages/DoctorAppointments.tsx:37-42 | the label is "Today" exactly on today, "Tomorrow" exactly on the next day, otherwise the date itself |
| DoctorAppointments.Mine | src/pages/DoctorAppointments.tsx:12 | exactly the signed-in doctor's appointments, in store order; the whole store exactly when every appointment is the doctor's |
| DoctorAppointments.Listed | src/pages/DoctorAppointments.tsx:12-24 | exactly the doctor's appointments passing the filter, each as often as in the filtered list, ordered by date and then by time |
| DoctorAppointments.PageCounts | src/pages/DoctorAppointments.tsx:70-77 | each counter is the length of the list its button shows over the doctor's appointments, and the five status counters add up to "all"; "all" is at most the store size and equals it exactly when every appointment is the doctor's |
| PatientAppointments.Mine | src/pages/PatientAppointments.tsx:12 | exactly the signed-in patient's appointments, in store order; the whole store exactly when every appointment is the patient's |
| PatientAppointments.Listed | src/pages/PatientAppointments.tsx:12-20 | exactly the patient's appointments passing the filter, each as often as in the filtered list, latest date first |
| PatientAppointments.CancelAppointment | src/pages/PatientAppointments.tsx:48-52 | the record with that id becomes cancelled with every other field kept; all other records are unchanged |
| PatientAppointments.PageCounts | src/pages/PatientAppointments.tsx:54-61 | each counter is the length of the list its button shows over the patient's appointments, and the five status counters add up to "all"; "all" is at most the store size and equals it exactly when every appointment is the patient's |
| DoctorDashboard.PendingList | src/pages/DoctorDashboard.tsx:12-14 | exactly the doctor's pending appointments, in store order |
| DoctorDashboard.PendingShown | src/pages/DoctorDashboard.tsx:117 | a prefix of the doctor's pending list of length min(5, n), n being the number of pending requests |
| DoctorDashboard.ConfirmedPicked | src/pages/DoctorDashboard.tsx:15-20 | exactly the doctor's confirmed appointments on one day, in store order, before the time sort |
| DoctorDashboard.ConfirmedOn | src/pages/DoctorDashboard.tsx:15-20 | a reordering of exactly the doctor's confirmed appointments on one day (each as often as in the store), ordered by time as the sorts at lines 166 and 202 order them |
| DoctorDashboard.TodaySchedule | src/pages/DoctorDashboard.tsx:15-17 | a reordering of exactly the doctor's confirmed appointments dated today, each as often as in the store, so its length is the counter's number; ordered by time (the sort at line 166) |
| DoctorDashboard.TomorrowSchedule | src/pages/DoctorDashboard.tsx:18-20 | a reordering of exactly the doctor's confirmed appointments dated tomorrow, each as often as in the store; ordered by time (the sort at line 202) |
| DoctorDashboard.SchedulesDisjoint | src/pages/DoctorDashboard.tsx:15-20 | no appointment appears in both today's and tomorrow's schedule |
| DoctorDashboard.PrescriptionCount | src/pages/DoctorDashboard.tsx:22 | the number of positions in the store holding a prescription written by the doctor; at most the store size, and equal to it exactly when every prescription is the doctor's |
| PatientDashboard.Eligible | src/pages/PatientDashboard.tsx:12-14 | exactly the patient's appointments dated at or after the current instant that are not cancelled, in store order |
| PatientDashboard.Upcoming | src/pages/PatientDashboard.tsx:13-16 | the first three eligible appointments by ascending date: drawn from the eligible ones without repeats, fewer only when fewer are eligible |
| PatientDashboard.UpcomingAreEarliest | src/pages/PatientDashboard.tsx:13-16 | no eligible appointment left out is dated earlier than one shown |
| PatientDashboard.UpcomingNotPast | src/pages/PatientDashboard.tsx:14 | an upcoming appointment is dated after today, or today exactly at midnight |
| PatientDashboard.RejectedStillUpcoming | src/pages/PatientDashboard.tsx:14 | a rejected appointment dated after today still counts as upcoming |
| PatientDashboard.RecentPrescriptions | src/pages/PatientDashboard.tsx:18-20 | a prefix of the patient's prescriptions in store order, of length min(3, n), n being how many the patient has |
| PatientDashboard.MedicationPreview | src/pages/PatientDashboard.tsx:167-169 | text of at most 50 characters is shown unchanged; longer text becomes its first 50 characters followed by "...", 53 in all. The preview equals the text exactly when the text is short or is itself such a preview |
| PatientDashboard.ConfirmedCount | src/pages/PatientDashboard.tsx:75 | the dashboard's confirmed counter is the length of the list the appointment page's confirmed button shows for the patient |
| AdminDashboard.ActiveApps | src/pages/AdminDashboard.tsx:10 | exactly the appointments that are not cancelled, in order |
| AdminDashboard.PendingApps | src/pages/AdminDashboard.tsx:11 | exactly the pending appointments, in order |
| AdminDashboard.PendingWithinActive | src/pages/AdminDashboard.tsx:74-75 | the pending list is the active list filtered to pending, so the "N pending" line never exceeds the active counter |
| AdminDashboard.TodayApps | src/pages/AdminDashboard.tsx:12-14 | exactly the appointments dated today, whatever their status, in store order |
| AdminDashboard.ActiveDoctors | src/pages/AdminDashboard.tsx:16 | exactly the active doctors, in store order |
| AdminDashboard.PatientIds | src/pages/AdminDashboard.tsx:17 | the set of patient ids occurring in the appointments, no larger than the appointment count |
| AdminDashboard.TotalPatients | src/pages/AdminDashboard.tsx:17 | the number of distinct patient ids among the appointments: at most the appointment count, and at least one when there is any appointment |
| AdminDashboard.OnePatientCountsOnce | src/pages/AdminDashboard.tsx:17 | many appointments of one patient count as one patient |
| AdminDashboard.AveragePerDoctorTenths | src/pages/AdminDashboard.tsx:119 | the figure is the nearest tenth of active appointments per doctor, halves up, dividing by one when there are no doctors |
| AdminDashboard.NoDoctorsDividesByOne | src/pages/AdminDashboard.tsx:119 | with no doctors the average is the active appointment count itself |
| AdminDashboard.SortedAppointmentStore | src/pages/AdminDashboard.tsx:20-22 | the array the in-place sort leaves behind: the same records, newest first (the model does not write it back into the store) |
| AdminDashboard.RecentAppointments | src/pages/AdminDashboard.tsx:20-22 | the first five of the store sorted newest first (fewer only when fewer exist): no repeats, newest first, none older than any left out |
| AdminDashboard.RecentPrescriptions | src/pages/AdminDashboard.tsx:24-26 | the first three of the prescriptions sorted newest first (fewer only when fewer exist): no repeats, newest first, none older than any left out |
| AdminDoctorManagement.FilteredDoctors | src/pages/admin/AdminDoctorManagement.tsx:11-19 | a doctor is listed exactly when the term occurs ignoring case in name, specialization or email and the status key matches; "active" and "inactive" keep only such doctors; order is kept |
| AdminDoctorManagement.EmptySearchListsAll | src/pages/admin/AdminDoctorManagement.tsx:11-19 | an empty search with status "all" lists every doctor, in order |
| AdminDoctorManagement.EmptySearchMatches | src/pages/admin/AdminDoctorManagement.tsx:11-19 | the empty search term matches every doctor |
| AdminDoctorManagement.StatusKeysPartition | src/pages/admin/AdminDoctorManagement.tsx:15-17 | for any term, the "active" and "inactive" lists together are as long as the "all" list |
| AdminDoctorManagement.Counts | src/pages/admin/AdminDoctorManagement.tsx:21-22 | the active and inactive counters are the lengths of the page's "active" and "inactive" lists for an empty search; they add up to the number of doctors, and inactive is zero exactly when every doctor is active |
| AdminPatientManagement.CountMap | src/pages/admin/AdminPatientManagement.tsx:53-56 | the map has an entry exactly for each patient id in the rows, holding the number of rows with that id |
| AdminPatientManagement.Shape | src/pages/admin/AdminPatientManagement.tsx:58-67 | one row per user in query order, with the user's fields, the first detail row's birth date and address or "", and the map's count or 0 |
| AdminPatientManagement.FirstDetail | src/pages/admin/AdminPatientManagement.tsx:63-64 | the first detail row's value when present, otherwise "" |
| AdminPatientManagement.ShapedCountIsOccurrences | src/pages/admin/AdminPatientManagement.tsx:53-67 | with the map the reduce builds, each row's count is that patient's number of appointment rows |
| AdminPatientManagement.TotalAppointments | src/pages/admin/AdminPatientManagement.tsx:83 | the total is at least every row's count and zero for no rows |
| AdminPatientManagement.TotalIsRowCount | src/pages/admin/AdminPatientManagement.tsx:83 | with distinct patient ids and every appointment row naming a listed patient, the total is the number of appointment rows |
| AdminPatientManagement.FilteredPatients | src/pages/admin/AdminPatientManagement.tsx:77-81 | a patient is listed exactly when the name or email contains the term ignoring case, or the phone contains it exactly; order is kept |
| AdminPatientManagement.EmptySearchListsAll | src/pages/admin/AdminPatientManagement.tsx:77-81 | an empty search lists every patient |
| PrescriptionViews.NewestFirst | src/pages/PatientPrescriptions.tsx:20-22 | the same prescriptions, newest first |
| PrescriptionViews.Search | src/pages/PatientPrescriptions.tsx:15-18 | fails exactly when some record lacks the searched name; otherwise keeps exactly the records whose name or medications contain the term ignoring case, in order |
| PrescriptionViews.EmptyTermKeepsAll | src/pages/PatientPrescriptions.tsx:15-18 | when every record has the name, an empty term keeps the whole list |
| PrescriptionViews.Listed | src/pages/PatientPrescriptions.tsx:15-22 | fails exactly when some record lacks the searched name; otherwise a reordering of the search result (each match as often as in the list), newest first |
| PatientPrescriptions.Mine | src/pages/PatientPrescriptions.tsx:13 | exactly the signed-in patient's prescriptions, in store order |
| PatientPrescriptions.Listed | src/pages/PatientPrescriptions.tsx:13-22 | fails exactly when one of the patient's prescriptions has no doctor name; otherwise a reordering of the patient's prescriptions matching the term, each as often as in the store, newest first |
| PatientPrescriptions.DrawLines | src/pages/PatientPrescriptions.tsx:44-53 | one line per segment, in order, each at a y between 20 and 270 that is a multiple of 10. A line goes to a new page at y = 20 exactly when the cursor is past 270; otherwise it goes 10 below the previous line |
| PatientPrescriptions.Layout | src/pages/PatientPrescriptions.tsx:44-74 | as many medication lines as newline-separated segments, which join back to the medications text; the instructions block appears exactly when instructions are non-empty; every line lies between 20 and 270 |
| PatientPrescriptions.ShortListsStayOnFirstPage | src/pages/PatientPrescriptions.tsx:43-53 | up to sixteen medication lines sit on the first page at 120, 130, … |
| PatientPrescriptions.SeventeenthLineBreaksPage | src/pages/PatientPrescriptions.tsx:46-49 | the seventeenth medication line opens page two at the top |
| DoctorPrescriptions.Own | src/pages/doctor/DoctorPrescriptions.tsx:18 | exactly the doctor's prescriptions, in order |
| DoctorPrescriptions.CompletedAppointments | src/pages/doctor/DoctorPrescriptions.tsx:19-21 | the picker offers exactly the doctor's completed appointments |
| DoctorPrescriptions.Listed | src/pages/doctor/DoctorPrescriptions.tsx:23-30 | fails exactly when one of the doctor's prescriptions has no patient name; otherwise a reordering of the doctor's prescriptions matching the term, each as often as in the store, newest first |
| DoctorPrescriptions.FindAppointment | src/pages/doctor/DoctorPrescriptions.tsx:40 | finds an appointment exactly when one has that id, and then the first one |
| DoctorPrescriptions.DraftFor | src/pages/doctor/DoctorPrescriptions.tsx:46-52 | the record links the appointment, takes the patient from it and the doctor from the user, and carries no names |
| DoctorPrescriptions.Submit | src/pages/doctor/DoctorPrescriptions.tsx:33-54 | refused for a missing selection or blank medications or instructions; otherwise refused exactly when no appointment has the id; otherwise one prescription is appended, linked to the first appointment with that id |
| DoctorPrescriptions.SubmitAcceptsAnyListedAppointment | src/pages/doctor/DoctorPrescriptions.tsx:40-44 | any appointment id in the store is accepted, completed or not, whoever's it is |
| DoctorPrescriptions.CreatedPrescriptionBreaksSearch | src/pages/doctor/DoctorPrescriptions.tsx:46-52 | after a prescription is created, the doctor's and that patient's prescription lists both throw |
| AuthContext.FindAccount | src/contexts/AuthContext.tsx:88 | finds the first account with exactly that email and password, or reports that none has them |
| AuthContext.Login | src/contexts/AuthContext.tsx:87-97 | succeeds exactly when some account has that email and password; the first such profile, which has no password field, becomes the session; on failure nothing changes |
| AuthContext.PatientFormSignsInDoctor | src/components/auth/UserLogin.tsx:24 | the patient form's 'patient' argument is ignored: a doctor's credentials sign the doctor in |
| AuthContext.LoginReplacesSession | src/contexts/AuthContext.tsx:87-97 | a successful login replaces whoever was signed in with a user of that email |
| AuthContext.Logout | src/contexts/AuthContext.tsx:99-102 | nobody is signed in afterwards; the accounts stay |
| AuthContext.GeneratedId | src/contexts/AuthContext.tsx:107 | "user_" followed by the decimal digits of the clock, which read back as the clock value |
| AuthContext.Register | src/contexts/AuthContext.tsx:104-118 | always true. Exactly one account is appended, with the supplied id if any (else the generated one) and the clock's timestamp. The new profile is signed in |
| AuthContext.DuplicateRegistrationShadowed | src/contexts/AuthContext.tsx:104-118 | a taken email registers anyway; with the same password, login then finds the older account |
| AuthContext.NoPasswordNoLogin | src/contexts/AuthContext.tsx:104-115 | an account registered without a password never matches a login, which compares passwords at line 88 |
| AuthContext.ForgotPassword | src/contexts/AuthContext.tsx:120-124 | true exactly when some account has that email; nothing is sent or changed |
| AuthContext.FindEmail | src/contexts/AuthContext.tsx:122 | finds the first account with exactly that email, or reports that none has it |
| AuthContext.LoginEmailIsKnown | src/contexts/AuthContext.tsx:87-124 | every email that signs in successfully is one the password reset recognises |
| AuthContext.RegisteredEmailIsKnown | src/contexts/AuthContext.tsx:104-124 | right after registering, the password reset recognises the registered email |
| AuthContext.ResetPassword | src/contexts/AuthContext.tsx:126-129 | true for any token and password, and nothing changes |
| AuthContext.ResetKeepsOldPassword | src/contexts/AuthContext.tsx:126-129 | after a reset the new password is still refused and the old one still accepted |
| ProtectedRoute.RoleHome | src/components/ProtectedRoute.tsx:19-28 | admin, doctor and patient go to their dashboards, any other role to /login |
| ProtectedRoute.Guard | src/components/ProtectedRoute.tsx:10-32 | no user goes to /login; an allowed role (or no role list) renders; any other role goes to its dashboard |
| ProtectedRoute.RenderOnlyForAllowed | src/components/ProtectedRoute.tsx:13-31 | the page renders exactly for a signed-in user whose role is allowed |
| AppRoutes.DefaultRoute | src/App.tsx:40-47 | admin, doctor and patient go to their dashboards, anything else to /login |
| AppRoutes.DefaultRouteIsRoleHome | src/App.tsx:40-47 | the default route and the guard's redirect agree for every role |
| AppRoutes.Lookup | src/App.tsx:55-142 | finds the guard of a declared path, or reports that the path is not declared |
| AppRoutes.RoutePathsDistinct | src/App.tsx:55-142 | each path is declared once |
| AppRoutes.RouteGuards | src/App.tsx:56-142 | every /patient… route admits only patients, every /doctor… route only doctors, every /admin… route only admins |
| AppRoutes.Resolve | src/App.tsx:29-145 | signed out, exactly the three public pages render and everything else goes to /login. Signed in, a page renders exactly when it is a declared route admitting the role; otherwise the user goes to the role's default route |
| AppRoutes.RoleHomeRenders | src/components/ProtectedRoute.tsx:19-25 | following a role redirect lands on a page that renders, so there is no second redirect |
| AppRoutes.SignedInLoginGoesHome | src/App.tsx:145 | signed in, / and /login both go to the default route |
| AppRoutes.UnknownRoleNeverRenders | src/App.tsx:40-47 | a user with any other role is sent to /login from every path, /login included, so no page ever renders |
| AppRoutes.DoctorFromPatientForm | src/components/auth/UserLogin.tsx:24-26 | a doctor signed in through the patient form lands on /patient, is redirected to /doctor, and that renders |
| Layout.NavLinks | src/components/Layout.tsx:19-48 | no links without a user or for an unknown role; 5 for admin and 4 for doctor or patient; distinct targets, the first being the role's dashboard |
| Layout.NavLinksRender | src/components/Layout.tsx:22-44 | every link a user sees lies under the role's dashboard path and renders for that user |
| Text.Trim | src/pages/doctor/DoctorPrescriptions.tsx:35 | the result occurs in the text with only whitespace before and after it, neither starts nor ends with whitespace, and is empty exactly when the text is all whitespace |
| Text.BlankIffAllWhitespace | src/pages/BookAppointment.tsx:80 | a field counts as blank exactly when every character of it is whitespace |

## Left out

- Network and storage. The database queries of the patient management page are left out,
  as are the client setup and the `localStorage` save and restore of the session. The page
  logic is modelled over the rows the queries return.
- Promises and React state scheduling. This covers the `.then` and `await` applied to store
  functions that return nothing. Each store update is applied at once.
- `window.confirm` dialogs before cancelling or rejecting. The user is taken to answer yes.
- jsPDF drawing and file saving. Only the cursor arithmetic of the PDF download is modelled,
  not the fixed header lines or fonts.
- Time zones. The model takes the browser's zone to be UTC. `new Date("yyyy-MM-dd")` is
  midnight UTC, while `format`, `isToday` and `isTomorrow` read the local zone. West of UTC, a
  date string therefore reads as the previous local day at every hour:
  - the booking page takes a date's times from the previous weekday's slot;
  - the doctor's "today" list shows the appointments dated tomorrow.
  East of UTC the two readings agree.
- AdminDashboard.SortedAppointmentStore: the program sorts the stores' own `appointments` and
  `prescriptions` arrays in place while the admin dashboard renders. The provider is never
  remounted, so from then on every page sees both stores newest first, across logout and login.
  The model does not write the sorted arrays back. Wherever a row says "store order", as for
  `DoctorDashboard.PendingShown`, `PatientDashboard.RecentPrescriptions` and
  `DoctorPrescriptions.FindAppointment`, it means the order the records were added in.
- Lifecycle.Press: the Add Prescription press is modelled as leaving the stores unchanged. In
  the program it assigns `window.location.href`, a full page load: the appointment and
  prescription stores restart from their seed data and every registered account is lost.
- Lifecycle.RunKeepsTerminalRecords: holds within one page load. An Add Prescription press
  reloads the page and restores the seed data, which the model does not represent.
- DoctorPrescriptions.Submit: `Success` means the prescription was appended. The page reads the
  result of `addPrescription`, which returns nothing, so it always reports "Failed to create
  prescription" and keeps the form filled; submitting again appends a duplicate. That alert
  and the duplicate are not modelled.
- Floating point. The appointments-per-patient average (`toFixed`) is left out.
- AdminDashboard.AveragePerDoctorTenths: rounds the exact ratio. Floating-point rounding at
  exact halves may differ.
- Text. Lower-casing covers ASCII letters only. A string is a sequence of Unicode characters,
  while JavaScript strings are sequences of UTF-16 code units: lengths, positions and `includes`
  agree on text inside the Basic Multilingual Plane only. `localeCompare` is taken as character
  order, which agrees with it on "HH:MM" times.
- PatientDashboard.MedicationPreview: lengths and the 50-character cut count Unicode characters,
  not UTF-16 code units, so text with characters outside the Basic Multilingual Plane is cut at a
  different place.
- `parseInt` leniency (leading spaces, signs, other bases). Times are taken to be "HH:MM";
  a malformed hour yields no times.
- Date formatting. A date label's text (`MMM dd` or `MMM dd, yyyy`) is left out; the label
  keeps the date itself.
- Records. Doctor-only and patient-only profile fields are not part of the session user.
  Neither are extra registration fields, nor the optional prescription file fields.
- Patches. A `Partial` patch that sets a field explicitly to `undefined` is not modelled.
  A patch field is either absent or a value.
- Count map keys. Ids that collide with members of JavaScript's object prototype (such as
  "constructor") are not modelled. The count map is a plain map.
- Ids. Generated ids and timestamps come from the clock and are parameters. Uniqueness of
  appointment ids is a precondition where needed; `Lifecycle.SharedIdRewritesTerminalRecord`
  shows why.
- Route matching. React Router's trailing-slash and case-insensitive matching are not
  modelled; paths match exactly.
- The specialization drop-down list of the booking page is left out: it is pure display.
- Pages without logic are left out: the placeholder admin and doctor pages, the forms'
  input handling, and the loading spinner.

=== FILE: admin_dashboard.dfy ===
/** The administrator's dashboard: system counters, the appointments-per-doctor figure and recent activity. */
module AdminDashboard {
  import opened Seqs
  import opened Types
  import opened PrescriptionViews

  /** `activeApps`: every appointment that is not cancelled. */
  function ActiveApps(apps: seq<Appointment>): (r: seq<Appointment>)
    ensures forall a :: a in r <==> a in apps && a.status != Cancelled
    ensures IsSubseq(r, apps)
  {
    Filter(apps, (a: Appointment) => a.status != Cancelled)
  }

  /** `pendingApps`: every appointment awaiting a doctor's answer. */
  function PendingApps(apps: seq<Appointment>): (r: seq<Appointment>)
    ensures forall a :: a in r <==> a in apps && a.status == Pending
    ensures IsSubseq(r, apps)
  {
    Filter(apps, (a: Appointment) => a.status == Pending)
  }

  /** The "N pending" line under the active counter never exceeds it: pending appointments are active ones. */
  lemma PendingWithinActive(apps: seq<Appointment>)
    ensures PendingApps(apps) == Filter(ActiveApps(apps), (a: Appointment) => a.status == Pending)
    ensures IsSubseq(PendingApps(apps), ActiveApps(apps))
    ensures |PendingApps(apps)| <= |ActiveApps(apps)|
  {
    var notCancelled := (a: Appointment) => a.status != Cancelled;
    var pending := (a: Appointment) => a.status == Pending;
    FilterNarrower(apps, notCancelled, pending);
    FilterSubseq(Filter(apps, notCancelled), pending);
    SubseqLength(PendingApps(apps), ActiveApps(apps));
  }

  /** `todayApps`: every appointment dated today, whatever its status. */
  function TodayApps(apps: seq<Appointment>, today: int): (r: seq<Appointment>)
    ensures forall a :: a in r <==> a in apps && a.date == today
    ensures IsSubseq(r, apps)
    ensures |r| <= |apps|
  {
    Filter(apps, (a: Appointment) => a.date == today)
  }

  /** `activeDoctors`. */
  function ActiveDoctors(docs: seq<Doctor>): (r: seq<Doctor>)
    ensures forall d :: d in r <==> d in docs && d.isActive
    ensures IsSubseq(r, docs)
    ensures |r| <= |docs|
  {
    Filter(docs, (d: Doctor) => d.isActive)
  }

  /** The patient ids that occur in the appointment store. */
  function PatientIds(apps: seq<Appointment>): (ids: set<string>)
    ensures forall p :: p in ids <==> exists a :: a in apps && a.patientId == p
    ensures |ids| <= |apps|
  {
    if |apps| == 0 then {}
    else
      var rest := PatientIds(apps[1..]);
      assert forall a :: a in apps <==> a == apps[0] || a in apps[1..];
      {apps[0].patientId} + rest
  }

  /** `totalPatients`: patients with at least one appointment; registered patients without one are not counted. */
  function TotalPatients(apps: seq<Appointment>): (n: nat)
    ensures n <= |apps|
    ensures |apps| > 0 ==> n >= 1
    ensures n == |set a | a in apps :: a.patientId|
  {
    assert |apps| > 0 ==> apps[0].patientId in PatientIds(apps);
    assert PatientIds(apps) == set a | a in apps :: a.patientId;
    |PatientIds(apps)|
  }

  /** When every patient id in the store is the same, the counter shows one. */
  lemma OnePatientCountsOnce(apps: seq<Appointment>, p: string)
    requires |apps| > 0
    requires forall a :: a in apps ==> a.patientId == p
    ensures TotalPatients(apps) == 1
  {
    assert apps[0] in apps;
    assert PatientIds(apps) == {p};
  }

  /**
   * "Avg per Doctor": `Math.round(active / max(doctors, 1) * 10) / 10`, held as a whole
   * number of tenths; the result is the nearest tenth, halves rounding up.
   */
  function AveragePerDoctorTenths(active: nat, doctors: nat): (t: nat)
    ensures var m := if doctors < 1 then 1 else doctors;
      2 * m * t <= 20 * active + m < 2 * m * (t + 1)
  {
    var m := if doctors < 1 then 1 else doctors;
    (20 * active + m) / (2 * m)
  }

  /** With no doctors on file the figure divides by one instead of zero. */
  lemma NoDoctorsDividesByOne(active: nat)
    ensures AveragePerDoctorTenths(active, 0) == 10 * active
  {
  }

  /** The comparator `createdAt(b) - createdAt(a)`: newest first. */
  predicate NewerAppointment(a: Appointment, b: Appointment)
  {
    a.createdAt >= b.createdAt
  }

  lemma NewerAppointmentIsTotalPreorder()
    ensures TotalPreorder(NewerAppointment)
  {
  }

  /**
   * `appointments.sort(...)`: the store's own array, newest first. In the program the sort
   * happens in place, so later readers of the store see this order too; the model returns the
   * reordered array but does not write it back, and everywhere else "store order" means the
   * order records were added in. The prescription array is sorted the same way
   * (`PrescriptionViews.NewestFirst`).
   */
  function SortedAppointmentStore(apps: seq<Appointment>): (r: seq<Appointment>)
    ensures multiset(r) == multiset(apps)
    ensures forall i, j :: 0 <= i < j < |r| ==> r[i].createdAt >= r[j].createdAt
  {
    NewerAppointmentIsTotalPreorder();
    SortBy(apps, NewerAppointment)
  }

  /** `recentAppointments`: the five newest appointments. */
  function RecentAppointments(apps: seq<Appointment>): (r: seq<Appointment>)
    ensures |r| == if |apps| < 5 then |apps| else 5
    ensures forall a :: a in r ==> a in apps
    ensures forall a, b :: a in r && b in apps && b !in r ==> a.createdAt >= b.createdAt
    ensures r <= SortedAppointmentStore(apps)
    ensures multiset(r) <= multiset(apps)
    ensures forall i, j :: 0 <= i < j < |r| ==> r[i].createdAt >= r[j].createdAt
  {
    NewerAppointmentIsTotalPreorder();
    SortByMembers(apps, NewerAppointment);
    var r := Take(SortedAppointmentStore(apps), 5);
    forall a, b | a in r && b in apps && b !in r
      ensures a.createdAt >= b.createdAt
    {
      SortedPrefixDominates(apps, NewerAppointment, 5, a, b);
    }
    r
  }

  /** `recentPrescriptions`: the three newest prescriptions. */
  function RecentPrescriptions(ps: seq<Prescription>): (r: seq<Prescription>)
    ensures |r| == if |ps| < 3 then |ps| else 3
    ensures forall p :: p in r ==> p in ps
    ensures forall p, q :: p in r && q in ps && q !in r ==> p.createdAt >= q.createdAt
    ensures r <= NewestFirst(ps)
    ensures multiset(r) <= multiset(ps)
    ensures forall i, j :: 0 <= i < j < |r| ==> r[i].createdAt >= r[j].createdAt
  {
    NewerPrescriptionIsTotalPreorder();
    SortByMembers(ps, NewerPrescription);
    var r := Take(NewestFirst(ps), 3);
    forall p, q | p in r && q in ps && q !in r
      ensures p.createdAt >= q.createdAt
    {
      SortedPrefixDominates(ps, NewerPrescription, 3, p, q);
    }
    r
  }
}

=== FILE: admin_doctor_management.dfy ===
/** The administrator's doctor list: search, status filter and the active/inactive counters. */
module AdminDoctorManagement {
  import opened Seqs
  import opened Text
  import opened Types

  /** `matchesSearch`: the term occurs, ignoring case, in the name, the specialization or the email. */
  predicate MatchesSearch(d: Doctor, term: string)
  {
    IncludesIgnoringCase(d.name, term) || IncludesIgnoringCase(d.specialization, term)
    || IncludesIgnoringCase(d.email, term)
  }

  /** `matchesStatus`: key "all" keeps every doctor, "active" and "inactive" the matching ones, any other key none. */
  predicate MatchesStatus(d: Doctor, key: string)
  {
    key == "all" || (key == "active" && d.isActive) || (key == "inactive" && !d.isActive)
  }

  function Passes(term: string, key: string): Doctor -> bool
  {
    (d: Doctor) => MatchesSearch(d, term) && MatchesStatus(d, key)
  }

  /** `filteredDoctors`. */
  function FilteredDoctors(docs: seq<Doctor>, term: string, key: string): (r: seq<Doctor>)
    ensures forall d :: d in r <==> d in docs && MatchesSearch(d, term) && MatchesStatus(d, key)
    ensures IsSubseq(r, docs)
    ensures key == "active" ==> forall d :: d in r ==> d.isActive
    ensures key == "inactive" ==> forall d :: d in r ==> !d.isActive
  {
    Filter(docs, Passes(term, key))
  }

  /** The empty term matches every doctor. */
  lemma EmptySearchMatches()
    ensures forall d: Doctor :: MatchesSearch(d, "")
  {
    forall d: Doctor
      ensures MatchesSearch(d, "")
    {
      EmptyIncluded(ToLower(d.name));
    }
  }

  /** An empty search with status "all" lists every doctor, in store order. */
  lemma EmptySearchListsAll(docs: seq<Doctor>)
    ensures FilteredDoctors(docs, "", "all") == docs
  {
    EmptySearchMatches();
    FilterKeepsAll(docs, Passes("", "all"));
  }

  /** The status filter splits the matching doctors: "active" and "inactive" together are "all". */
  lemma StatusKeysPartition(docs: seq<Doctor>, term: string)
    ensures |FilteredDoctors(docs, term, "active")| + |FilteredDoctors(docs, term, "inactive")|
            == |FilteredDoctors(docs, term, "all")|
  {
    var all := FilteredDoctors(docs, term, "all");
    var act := (d: Doctor) => d.isActive;
    var inact := (d: Doctor) => !d.isActive;
    FilterPartition(all, act, inact);
    FilterNarrower(docs, Passes(term, "all"), Passes(term, "active"));
    FilterNarrower(docs, Passes(term, "all"), Passes(term, "inactive"));
    assert forall d :: Passes(term, "all")(d) ==> (Passes(term, "active")(d) == act(d));
    assert forall d :: Passes(term, "all")(d) ==> (Passes(term, "inactive")(d) == inact(d));
    FilterAgreeOnFiltered(docs, Passes(term, "all"), Passes(term, "active"), act);
    FilterAgreeOnFiltered(docs, Passes(term, "all"), Passes(term, "inactive"), inact);
  }

  /** The two counters on the page: `activeDoctors` and `inactiveDoctors`. */
  datatype DoctorCounts = DoctorCounts(active: nat, inactive: nat)

  function Counts(docs: seq<Doctor>): (c: DoctorCounts)
    ensures c.active + c.inactive == |docs|
    ensures c.inactive == 0 <==> forall d :: d in docs ==> d.isActive
    ensures c.active == |FilteredDoctors(docs, "", "active")|
    ensures c.inactive == |FilteredDoctors(docs, "", "inactive")|
  {
    EmptySearchMatches();
    FilterExt(docs, Passes("", "active"), (d: Doctor) => d.isActive);
    FilterExt(docs, Passes("", "inactive"), (d: Doctor) => !d.isActive);
    FilterPartition(docs, (d: Doctor) => d.isActive, (d: Doctor) => !d.isActive);
    FilterFullIffAll(docs, (d: Doctor) => d.isActive);
    DoctorCounts(|Filter(docs, (d: Doctor) => d.isActive)|, |Filter(docs, (d: Doctor) => !d.isActive)|)
  }
}

=== FILE: admin_patient_management.dfy ===
/**
 * The administrator's patient list, after the two database queries have returned:
 * the per-patient appointment count map, the shaping of each row, the search and the total.
 */
module AdminPatientManagement {
  import opened Wrappers
  import opened Seqs
  import opened Text

  /** One `patients` detail row joined to a user; both columns may be null. */
  datatype PatientDetails = PatientDetails(dateOfBirth: Option<string>, address: Option<string>)

  /** One row of the `users` query: a patient account with its joined detail rows. */
  datatype UserRow = UserRow(id: string, name: string, email: string, phone: string, createdAt: string,
                             details: seq<PatientDetails>)

  /** A row of the table the page shows. */
  datatype PatientRow = PatientRow(id: string, name: string, email: string, phone: string,
                                   dateOfBirth: string, address: string, createdAt: string, appointmentCount: nat)

  /** How many of the appointment rows name patient `p`. */
  function CountOf(rows: seq<string>, p: string): nat
  {
    if |rows| == 0 then 0
    else CountOf(rows[..|rows| - 1], p) + (if rows[|rows| - 1] == p then 1 else 0)
  }

  lemma CountOfPositive(rows: seq<string>, p: string)
    ensures CountOf(rows, p) > 0 <==> p in rows
  {
    if |rows| > 0 {
      CountOfPositive(rows[..|rows| - 1], p);
      assert rows == rows[..|rows| - 1] + [rows[|rows| - 1]];
    }
  }

  /** The map holds exactly the patients that occur in `rows`, each with its number of occurrences. */
  ghost predicate IsCountMap(m: map<string, nat>, rows: seq<string>)
  {
    (forall p :: p in m <==> p in rows) && (forall p :: p in m ==> m[p] == CountOf(rows, p))
  }

  /** `countMap`: the `reduce` over the `patient_id` column that counts appointments per patient. */
  method CountMap(rows: seq<string>) returns (m: map<string, nat>)
    ensures forall p :: p in m <==> p in rows
    ensures forall p :: p in m ==> m[p] == CountOf(rows, p)
  {
    m := map[];
    var i := 0;
    while i < |rows|
      invariant 0 <= i <= |rows|
      invariant forall p :: p in m <==> p in rows[..i]
      invariant forall p :: p in m ==> m[p] == CountOf(rows[..i], p)
    {
      var p := rows[i];
      var prior := if p in m then m[p] else 0;
      CountOfPositive(rows[..i], p);
      m := m[p := prior + 1];
      assert rows[..i + 1][..i] == rows[..i];
      i := i + 1;
    }
    assert rows[..i] == rows;
  }

  /** `patient.patients?.[0]?.<column> || ''`: the first detail row's value, or the empty string. */
  function FirstDetail(details: seq<PatientDetails>, dob: bool): (v: string)
    ensures |details| == 0 ==> v == ""
    ensures |details| > 0 && dob && details[0].dateOfBirth.Some? ==> v == details[0].dateOfBirth.value
    ensures |details| > 0 && !dob && details[0].address.Some? ==> v == details[0].address.value
    ensures |details| > 0 && (if dob then details[0].dateOfBirth else details[0].address).None? ==> v == ""
  {
    if |details| == 0 then ""
    else if dob then details[0].dateOfBirth.GetOr("")
    else details[0].address.GetOr("")
  }

  /** `patientsData`: one table row per user row, in query order. */
  function Shape(users: seq<UserRow>, m: map<string, nat>): (r: seq<PatientRow>)
    ensures |r| == |users|
    ensures forall i :: 0 <= i < |users| ==>
      && r[i].id == users[i].id && r[i].name == users[i].name && r[i].email == users[i].email
      && r[i].phone == users[i].phone && r[i].createdAt == users[i].createdAt
      && r[i].dateOfBirth == FirstDetail(users[i].details, true)
      && r[i].address == FirstDetail(users[i].details, false)
      && r[i].appointmentCount == (if users[i].id in m then m[users[i].id] else 0)
  {
    seq(|users|, i requires 0 <= i < |users| =>
      var u := users[i];
      PatientRow(u.id, u.name, u.email, u.phone, FirstDetail(u.details, true), FirstDetail(u.details, false),
                 u.createdAt, if u.id in m then m[u.id] else 0))
  }

  /** With the map the reduce builds, every row's count is the number of appointments of that patient. */
  lemma ShapedCountIsOccurrences(users: seq<UserRow>, rows: seq<string>, m: map<string, nat>, i: int)
    requires IsCountMap(m, rows)
    requires 0 <= i < |users|
    ensures Shape(users, m)[i].appointmentCount == CountOf(rows, users[i].id)
  {
    CountOfPositive(rows, users[i].id);
  }

  /** `totalAppointments`: the sum of the shown counts. */
  function TotalAppointments(pats: seq<PatientRow>): (n: nat)
    ensures |pats| == 0 ==> n == 0
    ensures forall i :: 0 <= i < |pats| ==> pats[i].appointmentCount <= n
  {
    if |pats| == 0 then 0
    else pats[0].appointmentCount + TotalAppointments(pats[1..])
  }

  /** Sum over the users of each one's number of appointment rows. */
  function SumCounts(users: seq<UserRow>, rows: seq<string>): nat
  {
    if |users| == 0 then 0 else CountOf(rows, users[0].id) + SumCounts(users[1..], rows)
  }

  /** How many users have id `p`. */
  function Hits(users: seq<UserRow>, p: string): nat
  {
    if |users| == 0 then 0 else (if users[0].id == p then 1 else 0) + Hits(users[1..], p)
  }

  ghost predicate DistinctIds(users: seq<UserRow>)
  {
    forall i, j :: 0 <= i < j < |users| ==> users[i].id != users[j].id
  }

  lemma {:induction false} HitsOnce(users: seq<UserRow>, p: string)
    requires DistinctIds(users)
    ensures Hits(users, p) == (if exists u :: u in users && u.id == p then 1 else 0)
  {
    if |users| > 0 {
      HitsOnce(users[1..], p);
      if users[0].id == p {
        forall u | u in users[1..]
          ensures u.id != p
        {
          var j :| 0 <= j < |users[1..]| && users[1..][j] == u;
          assert users[j + 1] == u;
        }
      }
      assert forall u :: u in users <==> u == users[0] || u in users[1..];
    }
  }

  lemma {:induction false} SumCountsAppend(users: seq<UserRow>, rows: seq<string>, x: string)
    ensures SumCounts(users, rows + [x]) == SumCounts(users, rows) + Hits(users, x)
  {
    if |users| > 0 {
      SumCountsAppend(users[1..], rows, x);
      assert (rows + [x])[..|rows + [x]| - 1] == rows;
    }
  }

  lemma {:induction false} SumCountsIsRowCount(users: seq<UserRow>, rows: seq<string>)
    requires DistinctIds(users)
    requires forall x :: x in rows ==> exists u :: u in users && u.id == x
    ensures SumCounts(users, rows) == |rows|
  {
    if |rows| == 0 {
      SumCountsEmpty(users, rows);
    } else {
      var front := rows[..|rows| - 1];
      var x := rows[|rows| - 1];
      assert rows == front + [x];
      assert forall y :: y in front ==> y in rows;
      assert x in rows;
      SumCountsIsRowCount(users, front);
      SumCountsAppend(users, front, x);
      HitsOnce(users, x);
    }
  }

  lemma {:induction false} SumCountsEmpty(users: seq<UserRow>, rows: seq<string>)
    requires |rows| == 0
    ensures SumCounts(users, rows) == 0
  {
    if |users| > 0 {
      SumCountsEmpty(users[1..], rows);
    }
  }

  lemma {:induction false} TotalOfShape(users: seq<UserRow>, rows: seq<string>, m: map<string, nat>)
    requires IsCountMap(m, rows)
    ensures TotalAppointments(Shape(users, m)) == SumCounts(users, rows)
  {
    if |users| > 0 {
      TotalOfShape(users[1..], rows, m);
      assert Shape(users, m)[1..] == Shape(users[1..], m);
      ShapedCountIsOccurrences(users, rows, m, 0);
    }
  }

  /**
   * The "Total Appointments" figure equals the number of appointment rows when patient ids
   * are distinct and every appointment row names a listed patient, which the `.in('patient_id', …)`
   * query guarantees.
   */
  lemma TotalIsRowCount(users: seq<UserRow>, rows: seq<string>, m: map<string, nat>)
    requires IsCountMap(m, rows)
    requires DistinctIds(users)
    requires forall x :: x in rows ==> exists u :: u in users && u.id == x
    ensures TotalAppointments(Shape(users, m)) == |rows|
  {
    TotalOfShape(users, rows, m);
    SumCountsIsRowCount(users, rows);
  }

  /** The search: name or email containing the term ignoring case, or the phone containing it exactly. */
  predicate MatchesSearch(p: PatientRow, term: string)
  {
    IncludesIgnoringCase(p.name, term) || IncludesIgnoringCase(p.email, term) || Includes(p.phone, term)
  }

  /** `filteredPatients`. */
  function FilteredPatients(pats: seq<PatientRow>, term: string): (r: seq<PatientRow>)
    ensures forall p :: p in r <==> p in pats && MatchesSearch(p, term)
    ensures IsSubseq(r, pats)
  {
    Filter(pats, (p: PatientRow) => MatchesSearch(p, term))
  }

  /** An empty search lists every patient. */
  lemma EmptySearchListsAll(pats: seq<PatientRow>)
    ensures FilteredPatients(pats, "") == pats
  {
    forall p: PatientRow
      ensures MatchesSearch(p, "")
    {
      EmptyIncluded(ToLower(p.name));
    }
    FilterKeepsAll(pats, (p: PatientRow) => MatchesSearch(p, ""));
  }
}

=== FILE: app_context.dfy ===
/**
 * The in-memory store of doctors, appointments and prescriptions as pure list
 * transformers. Fresh ids and creation timestamps (`Date.now()`, `new Date()`)
 * are parameters.
 */
module AppContext {
  import opened Wrappers
  import opened Types

  /** An appointment without its `id` and `createdAt`, as handed to `addAppointment`. */
  datatype AppointmentDraft = AppointmentDraft(
    patientId: string, doctorId: string,
    patientName: string, doctorName: string, doctorSpecialization: string,
    date: int, time: string, status: Status, reason: string)

  /** The draft part of a stored appointment. */
  function DraftOf(a: Appointment): AppointmentDraft
  {
    AppointmentDraft(a.patientId, a.doctorId, a.patientName, a.doctorName,
                     a.doctorSpecialization, a.date, a.time, a.status, a.reason)
  }

  /** `{ ...draft, id, createdAt }`. */
  function Stamp(d: AppointmentDraft, id: string, createdAt: int): (a: Appointment)
    ensures DraftOf(a) == d && a.id == id && a.createdAt == createdAt
  {
    Appointment(id, d.patientId, d.doctorId, d.patientName, d.doctorName,
                d.doctorSpecialization, d.date, d.time, d.status, d.reason, createdAt)
  }

  /** No two stored appointments share an id. */
  ghost predicate UniqueIds(apps: seq<Appointment>)
  {
    forall i, j :: 0 <= i < j < |apps| ==> apps[i].id != apps[j].id
  }

  /** `addAppointment`: appends one record built from the draft. */
  function AddAppointment(apps: seq<Appointment>, d: AppointmentDraft, id: string, createdAt: int): (r: seq<Appointment>)
    ensures |r| == |apps| + 1
    ensures r[..|apps|] == apps
    ensures DraftOf(r[|apps|]) == d && r[|apps|].id == id && r[|apps|].createdAt == createdAt
  {
    apps + [Stamp(d, id, createdAt)]
  }

  /** Appending with an id not yet in use keeps ids unique. */
  lemma AddFreshIdKeepsUnique(apps: seq<Appointment>, d: AppointmentDraft, id: string, createdAt: int)
    requires UniqueIds(apps)
    requires forall a :: a in apps ==> a.id != id
    ensures UniqueIds(AddAppointment(apps, d, id, createdAt))
  {
    var r := AddAppointment(apps, d, id, createdAt);
    forall i, j | 0 <= i < j < |r|
      ensures r[i].id != r[j].id
    {
      if j == |apps| {
        assert r[i] == apps[i];
        assert apps[i] in apps;
      } else {
        assert r[i] == apps[i] && r[j] == apps[j];
      }
    }
  }

  /** `Partial<Appointment>`: each field either absent (`None`) or a new value. */
  datatype AppointmentPatch = AppointmentPatch(
    id: Option<string>, patientId: Option<string>, doctorId: Option<string>,
    patientName: Option<string>, doctorName: Option<string>, doctorSpecialization: Option<string>,
    date: Option<int>, time: Option<string>, status: Option<Status>,
    reason: Option<string>, createdAt: Option<int>)

  /** `{ status }`: a patch that carries only a status. */
  function StatusPatch(s: Status): AppointmentPatch
  {
    AppointmentPatch(None, None, None, None, None, None, None, None, Some(s), None, None)
  }

  /** `{ ...app, ...updates }`: the patch's present fields override the record's. */
  function Merge(a: Appointment, p: AppointmentPatch): Appointment
  {
    Appointment(
      p.id.GetOr(a.id), p.patientId.GetOr(a.patientId), p.doctorId.GetOr(a.doctorId),
      p.patientName.GetOr(a.patientName), p.doctorName.GetOr(a.doctorName),
      p.doctorSpecialization.GetOr(a.doctorSpecialization),
      p.date.GetOr(a.date), p.time.GetOr(a.time), p.status.GetOr(a.status),
      p.reason.GetOr(a.reason), p.createdAt.GetOr(a.createdAt))
  }

  /** A status patch rewrites the status, whatever it was, and nothing else. */
  lemma MergeStatusPatch(a: Appointment, s: Status)
    ensures Merge(a, StatusPatch(s)) == a.(status := s)
  {
  }

  /** `updateAppointment`: every record with the id is merged with the patch. */
  function UpdateAppointment(apps: seq<Appointment>, id: string, p: AppointmentPatch): (r: seq<Appointment>)
    ensures |r| == |apps|
    ensures forall i :: 0 <= i < |apps| && apps[i].id == id ==> r[i] == Merge(apps[i], p)
    ensures forall i :: 0 <= i < |apps| && apps[i].id != id ==> r[i] == apps[i]
  {
    if |apps| == 0 then []
    else [if apps[0].id == id then Merge(apps[0], p) else apps[0]] + UpdateAppointment(apps[1..], id, p)
  }

  /** Updating an id that no record carries changes nothing. */
  lemma UpdateMissingId(apps: seq<Appointment>, id: string, p: AppointmentPatch)
    requires forall a :: a in apps ==> a.id != id
    ensures UpdateAppointment(apps, id, p) == apps
  {
    var r := UpdateAppointment(apps, id, p);
    forall i | 0 <= i < |apps|
      ensures r[i] == apps[i]
    {
      assert apps[i] in apps;
    }
  }

  /**
   * The store enforces no lifecycle: from any status, a status patch writes any
   * target status into the record with that id, leaving its other fields alone.
   */
  lemma UpdateChecksNoTransition(apps: seq<Appointment>, i: int, target: Status)
    requires 0 <= i < |apps|
    ensures UpdateAppointment(apps, apps[i].id, StatusPatch(target))[i] == apps[i].(status := target)
  {
    MergeStatusPatch(apps[i], target);
  }

  /** A status patch leaves every id where it was, so unique ids stay unique. */
  lemma StatusUpdateKeepsIds(apps: seq<Appointment>, id: string, s: Status)
    ensures forall i :: 0 <= i < |apps| ==> UpdateAppointment(apps, id, StatusPatch(s))[i].id == apps[i].id
    ensures UniqueIds(apps) ==> UniqueIds(UpdateAppointment(apps, id, StatusPatch(s)))
  {
  }

  /** A prescription without its `id` and `createdAt`, as handed to `addPrescription`. */
  datatype PrescriptionDraft = PrescriptionDraft(
    appointmentId: string, patientId: string, doctorId: string,
    patientName: Option<string>, doctorName: Option<string>,
    medications: string, instructions: string)

  function PrescriptionDraftOf(p: Prescription): PrescriptionDraft
  {
    PrescriptionDraft(p.appointmentId, p.patientId, p.doctorId, p.patientName, p.doctorName,
                      p.medications, p.instructions)
  }

  /** `addPrescription`: appends one record built from the draft. */
  function AddPrescription(ps: seq<Prescription>, d: PrescriptionDraft, id: string, createdAt: int): (r: seq<Prescription>)
    ensures |r| == |ps| + 1
    ensures r[..|ps|] == ps
    ensures PrescriptionDraftOf(r[|ps|]) == d && r[|ps|].id == id && r[|ps|].createdAt == createdAt
  {
    ps + [Prescription(id, d.appointmentId, d.patientId, d.doctorId, d.patientName, d.doctorName,
                       d.medications, d.instructions, createdAt)]
  }

  /** `updateDoctorAvailability`: replaces the schedule and leave days of the doctor with that id. */
  function UpdateDoctorAvailability(docs: seq<Doctor>, doctorId: string, availability: seq<TimeSlot>, leaveDays: seq<int>): (r: seq<Doctor>)
    ensures |r| == |docs|
    ensures forall i :: 0 <= i < |docs| && docs[i].id == doctorId ==>
              r[i].availability == availability && r[i].leaveDays == leaveDays
              && r[i].(availability := docs[i].availability, leaveDays := docs[i].leaveDays) == docs[i]
    ensures forall i :: 0 <= i < |docs| && docs[i].id != doctorId ==> r[i] == docs[i]
  {
    if |docs| == 0 then []
    else
      [if docs[0].id == doctorId then docs[0].(availability := availability, leaveDays := leaveDays) else docs[0]]
      + UpdateDoctorAvailability(docs[1..], doctorId, availability, leaveDays)
  }
}

=== FILE: app_routes.dfy ===
/** The route table: public pages when signed out, role-guarded pages when signed in. */
module AppRoutes {
  import opened Wrappers
  import opened Types
  import opened ProtectedRoute

  /** The only pages a signed-out visitor can reach. */
  const PublicPaths: seq<string> := ["/login", "/register", "/forgot-password"]

  /** `getDefaultRoute`. */
  function DefaultRoute(role: string): (path: string)
    ensures role == "admin" ==> path == "/admin"
    ensures role == "doctor" ==> path == "/doctor"
    ensures role == "patient" ==> path == "/patient"
    ensures role !in {"admin", "doctor", "patient"} ==> path == "/login"
  {
    match role
      case "admin" => "/admin"
      case "doctor" => "/doctor"
      case "patient" => "/patient"
      case _ => "/login"
  }

  /** `getDefaultRoute` and the guard's role switch send every role to the same place. */
  lemma DefaultRouteIsRoleHome(role: string)
    ensures DefaultRoute(role) == RoleHome(role)
  {
  }

  /** One guarded `<Route>`: its path and the `allowedRoles` of its `ProtectedRoute`. */
  datatype RouteEntry = RouteEntry(path: string, roles: seq<string>)

  const Routes: seq<RouteEntry> := [
    RouteEntry("/patient", ["patient"]),
    RouteEntry("/patient/book", ["patient"]),
    RouteEntry("/patient/appointments", ["patient"]),
    RouteEntry("/patient/prescriptions", ["patient"]),
    RouteEntry("/doctor", ["doctor"]),
    RouteEntry("/doctor/appointments", ["doctor"]),
    RouteEntry("/doctor/prescriptions", ["doctor"]),
    RouteEntry("/doctor/availability", ["doctor"]),
    RouteEntry("/admin", ["admin"]),
    RouteEntry("/admin/doctors", ["admin"]),
    RouteEntry("/admin/appointments", ["admin"]),
    RouteEntry("/admin/patients", ["admin"]),
    RouteEntry("/admin/prescriptions", ["admin"])
  ]

  /** The guard of the route declared for `path`, if any. */
  function Lookup(routes: seq<RouteEntry>, path: string): (r: Option<seq<string>>)
    ensures r.None? <==> forall k :: 0 <= k < |routes| ==> routes[k].path != path
    ensures r.Some? ==> exists k :: 0 <= k < |routes| && routes[k].path == path && routes[k].roles == r.value
  {
    if |routes| == 0 then None
    else if routes[0].path == path then Some(routes[0].roles)
    else
      var r := Lookup(routes[1..], path);
      assert r.Some? ==> exists k :: 1 <= k < |routes| && routes[k].path == path && routes[k].roles == r.value by {
        if r.Some? {
          var k :| 0 <= k < |routes[1..]| && routes[1..][k].path == path && routes[1..][k].roles == r.value;
          assert routes[k + 1] == routes[1..][k];
        }
      }
      r
  }

  /** Route paths are declared once each. */
  lemma RoutePathsDistinct()
    ensures forall i, j :: 0 <= i < j < |Routes| ==> Routes[i].path != Routes[j].path
  {
  }

  /** Every route path starts with "/" and a letter naming its area. */
  lemma RoutePathShapes()
    ensures forall k :: 0 <= k < |Routes| ==> |Routes[k].path| > 1 && Routes[k].path[1] in {'p', 'd', 'a'}
  {
    RouteGuards();
  }

  /** The roles found for a declared path are that path's roles wherever it is declared. */
  lemma LookupIsTheRoute(routes: seq<RouteEntry>, path: string, roles: seq<string>)
    requires forall i, j :: 0 <= i < j < |routes| ==> routes[i].path != routes[j].path
    requires Lookup(routes, path) == Some(roles)
    ensures forall k :: 0 <= k < |routes| && routes[k].path == path ==> routes[k].roles == roles
  {
  }

  /** Every `/patient…` page is for patients only, every `/doctor…` page for doctors, every `/admin…` page for admins. */
  lemma RouteGuards()
    ensures forall k :: 0 <= k < |Routes| && "/patient" <= Routes[k].path ==> Routes[k].roles == ["patient"]
    ensures forall k :: 0 <= k < |Routes| && "/doctor" <= Routes[k].path ==> Routes[k].roles == ["doctor"]
    ensures forall k :: 0 <= k < |Routes| && "/admin" <= Routes[k].path ==> Routes[k].roles == ["admin"]
  {
    forall k | 0 <= k < |Routes|
      ensures |Routes[k].path| > 1
      ensures Routes[k].path[1] == (if k < 4 then 'p' else if k < 8 then 'd' else 'a')
      ensures Routes[k].roles == [if k < 4 then "patient" else if k < 8 then "doctor" else "admin"]
    {
    }
    assert "/patient"[1] == 'p' && "/doctor"[1] == 'd' && "/admin"[1] == 'a';
  }

  /** The roles any route admits. */
  lemma RouteRolesKnown()
    ensures forall k :: 0 <= k < |Routes| ==> forall r :: r in Routes[k].roles ==> r in {"admin", "doctor", "patient"}
  {
  }

  /** `AppContent`: what visiting `path` does for the current user. */
  function Resolve(user: Option<User>, path: string): (o: Outcome)
    ensures user.None? ==> (o == Render <==> path in PublicPaths)
    ensures user.None? && path !in PublicPaths ==> o == Redirect("/login")
    ensures user.Some? ==> o == Render || o == Redirect(DefaultRoute(user.value.role))
    ensures user.Some? ==> (o == Render <==> exists k :: 0 <= k < |Routes| && Routes[k].path == path && user.value.role in Routes[k].roles)
  {
    if user.None? then
      if path in PublicPaths then Render else Redirect("/login")
    else if path == "/" then
      RoutePathShapes();
      Redirect(DefaultRoute(user.value.role))
    else match Lookup(Routes, path)
      case None => Redirect(DefaultRoute(user.value.role))
      case Some(roles) =>
        RoutePathsDistinct();
        LookupIsTheRoute(Routes, path, roles);
        DefaultRouteIsRoleHome(user.value.role);
        Guard(user, Some(roles))
  }

  /** Following a role redirect lands on a page that renders for that role. */
  lemma RoleHomeRenders(u: User)
    requires u.role in {"admin", "doctor", "patient"}
    ensures Resolve(Some(u), RoleHome(u.role)) == Render
  {
    if u.role == "admin" {
      assert Routes[8].path == "/admin";
    } else if u.role == "doctor" {
      assert Routes[4].path == "/doctor";
    } else {
      assert Routes[0].path == "/patient";
    }
  }

  /** Signed in, the login page is not a route: it falls through to the dashboard. */
  lemma SignedInLoginGoesHome(u: User)
    ensures Resolve(Some(u), "/login") == Redirect(DefaultRoute(u.role))
    ensures Resolve(Some(u), "/") == Redirect(DefaultRoute(u.role))
  {
    RoutePathShapes();
    assert "/login"[1] == 'l';
  }

  /**
   * A signed-in user with any other role is sent from every page to `/login`, which, being
   * signed in, sends them to `/login` again: they never reach a page.
   */
  lemma UnknownRoleNeverRenders(u: User, path: string)
    requires u.role !in {"admin", "doctor", "patient"}
    ensures Resolve(Some(u), path) == Redirect("/login")
    ensures Resolve(Some(u), "/login") == Redirect("/login")
  {
    RouteRolesKnown();
  }

  /** A doctor signed in through the patient form is sent to `/patient`, and from there to `/doctor`. */
  lemma DoctorFromPatientForm(u: User)
    requires u.role == "doctor"
    ensures Resolve(Some(u), "/patient") == Redirect("/doctor")
    ensures Resolve(Some(u), "/doctor") == Render
  {
    assert Routes[0].path == "/patient";
    assert Routes[4].path == "/doctor";
  }
}

=== FILE: appointment_views.dfy ===
/**
 * What the doctor's and the patient's appointment pages share: the status
 * filter buttons, the per-status counts shown on them, and the status badge
 * colours and icons.
 */
module AppointmentViews {
  import opened Seqs
  import opened Types

  /** The status filter: key "all" keeps everything, any other key the appointments with that status name. */
  function ByStatusKey(apps: seq<Appointment>, key: string): (r: seq<Appointment>)
    ensures key == "all" ==> r == apps
    ensures key != "all" ==> forall a :: a in r <==> a in apps && StatusName(a.status) == key
    ensures IsSubseq(r, apps)
  {
    if key == "all" then
      SubseqRefl(apps);
      apps
    else Filter(apps, (a: Appointment) => StatusName(a.status) == key)
  }

  /** How many appointments have status `st`. */
  function CountStatus(apps: seq<Appointment>, st: Status): nat
  {
    |Filter(apps, (a: Appointment) => a.status == st)|
  }

  /** `statusCounts`: the numbers on the six filter buttons. */
  datatype StatusCounts = StatusCounts(all: nat, pending: nat, confirmed: nat, completed: nat, cancelled: nat, rejected: nat)

  /** Every counter equals the length of the list its button shows. */
  predicate CountsShowLists(apps: seq<Appointment>, c: StatusCounts)
  {
    && c.all == |ByStatusKey(apps, "all")|
    && c.pending == |ByStatusKey(apps, "pending")|
    && c.confirmed == |ByStatusKey(apps, "confirmed")|
    && c.completed == |ByStatusKey(apps, "completed")|
    && c.cancelled == |ByStatusKey(apps, "cancelled")|
    && c.rejected == |ByStatusKey(apps, "rejected")|
  }

  function Counts(apps: seq<Appointment>): (c: StatusCounts)
    ensures CountsShowLists(apps, c)
    ensures c.all == c.pending + c.confirmed + c.completed + c.cancelled + c.rejected
  {
    CountsPartition(apps);
    ButtonCountMatchesList(apps, Pending);
    ButtonCountMatchesList(apps, Confirmed);
    ButtonCountMatchesList(apps, Completed);
    ButtonCountMatchesList(apps, Cancelled);
    ButtonCountMatchesList(apps, Rejected);
    StatusCounts(|apps|, CountStatus(apps, Pending), CountStatus(apps, Confirmed),
                 CountStatus(apps, Completed), CountStatus(apps, Cancelled), CountStatus(apps, Rejected))
  }

  /** Every appointment has exactly one of the five statuses, so the five counts add up to the total. */
  lemma {:induction false} CountsPartition(apps: seq<Appointment>)
    ensures CountStatus(apps, Pending) + CountStatus(apps, Confirmed) + CountStatus(apps, Completed)
            + CountStatus(apps, Cancelled) + CountStatus(apps, Rejected) == |apps|
  {
    if |apps| > 0 {
      CountsPartition(apps[1..]);
    }
  }

  /** The number on a status button is the length of the list that button shows. */
  lemma ButtonCountMatchesList(apps: seq<Appointment>, st: Status)
    ensures |ByStatusKey(apps, StatusName(st))| == CountStatus(apps, st)
  {
    NoStatusIsAll(st);
    forall a: Appointment
      ensures (StatusName(a.status) == StatusName(st)) == (a.status == st)
    {
      StatusNameRoundTrip(a.status);
      StatusNameRoundTrip(st);
    }
    FilterExt(apps, (a: Appointment) => StatusName(a.status) == StatusName(st), (a: Appointment) => a.status == st);
  }

  const GreenBadge := "bg-green-100 text-green-800"
  const YellowBadge := "bg-yellow-100 text-yellow-800"
  const RedBadge := "bg-red-100 text-red-800"
  const GrayBadge := "bg-gray-100 text-gray-800"
  const BlueBadge := "bg-blue-100 text-blue-800"

  /** `getStatusColor` of the appointment pages and the admin dashboard: five cases and a default. */
  function StatusColor(status: string): (c: string)
    ensures status == "confirmed" ==> c == GreenBadge
    ensures status == "pending" ==> c == YellowBadge
    ensures status == "rejected" ==> c == RedBadge
    ensures status == "cancelled" ==> c == GrayBadge
    ensures status == "completed" ==> c == BlueBadge
    ensures ParseStatus(status).None? ==> c == GrayBadge
  {
    match status
    case "confirmed" => GreenBadge
    case "pending" => YellowBadge
    case "rejected" => RedBadge
    case "cancelled" => GrayBadge
    case "completed" => BlueBadge
    case _ => GrayBadge
  }

  /** The five statuses get five different badges; an unknown status shares the cancelled grey. */
  lemma ColoursTellStatusesApart(s: Status, t: Status, unknown: string)
    requires ParseStatus(unknown).None?
    ensures StatusColor(StatusName(s)) == StatusColor(StatusName(t)) <==> s == t
    ensures StatusColor(unknown) == StatusColor(StatusName(Cancelled))
  {
  }

  /** `getStatusColor` of the doctor's and the patient's dashboards, which has no "completed" case. */
  function DashboardStatusColor(status: string): (c: string)
    ensures status == "confirmed" ==> c == GreenBadge
    ensures status == "pending" ==> c == YellowBadge
    ensures status == "rejected" ==> c == RedBadge
    ensures status != "confirmed" && status != "pending" && status != "rejected" ==> c == GrayBadge
  {
    match status
    case "confirmed" => GreenBadge
    case "pending" => YellowBadge
    case "rejected" => RedBadge
    case "cancelled" => GrayBadge
    case _ => GrayBadge
  }

  /** The dashboards colour every status as the full mapping does, except "completed", which falls to the default. */
  lemma DashboardColorDiffersOnlyOnCompleted(status: string)
    ensures status != "completed" ==> DashboardStatusColor(status) == StatusColor(status)
    ensures DashboardStatusColor("completed") == GrayBadge != StatusColor("completed")
  {
  }

  /** `getStatusIcon` of the patient's appointment page. */
  function StatusIcon(status: string): (icon: string)
    ensures status == "confirmed" || status == "completed" ==> icon == "✓"
    ensures status == "pending" ==> icon == "⏳"
    ensures status == "rejected" ==> icon == "✗"
    ensures status == "cancelled" ==> icon == "⊘"
    ensures ParseStatus(status).None? ==> icon == "?"
    ensures ParseStatus(status).Some? ==> icon != "?"
  {
    match status
    case "confirmed" => "✓"
    case "pending" => "⏳"
    case "rejected" => "✗"
    case "cancelled" => "⊘"
    case "completed" => "✓"
    case _ => "?"
  }

  /** Only confirmed and completed share an icon; every other pair of statuses is told apart. */
  lemma IconsTellStatusesApart(s: Status, t: Status)
    ensures StatusIcon(StatusName(s)) == StatusIcon(StatusName(t)) <==>
      s == t || (s == Confirmed && t == Completed) || (s == Completed && t == Confirmed)
  {
  }

  /** The day label of a date: "Today", "Tomorrow", or the formatted date. */
  datatype DateLabel = Today | Tomorrow | OnDate(day: int)

  /** `getDateLabel` (`isToday`, `isTomorrow`, else `format`). */
  function LabelOf(date: int, today: int): (l: DateLabel)
    ensures l == Today <==> date == today
    ensures l == Tomorrow <==> date == today + 1
    ensures l.OnDate? ==> l.day == date
  {
    if date == today then Today else if date == today + 1 then Tomorrow else OnDate(date)
  }
}

=== FILE: auth_context.dfy ===
/**
 * The authentication context: the in-memory account list, the signed-in user, and the
 * login, logout, register, forgot-password and reset-password operations.
 */
module AuthContext {
  import opened Wrappers
  import opened Text
  import opened Types

  /** A stored account: the profile plus the password, which a registration may omit. */
  datatype Account = Account(user: User, password: Option<string>)

  /** The account list (`mockUsers`, shared by every session) and the signed-in user. */
  datatype AuthState = AuthState(accounts: seq<Account>, session: Option<User>)

  /** 2024-01-01T00:00:00Z in milliseconds since the epoch. */
  const SeedCreatedAt := 1704067200000

  /** The four built-in accounts. */
  const SeedAccounts: seq<Account> := [
    Account(User("admin1", "admin@hospital.com", "System Administrator", "+1234567890", "admin", SeedCreatedAt), Some("admin123")),
    Account(User("doc1", "dr.smith@hospital.com", "Dr. John Smith", "+1234567891", "doctor", SeedCreatedAt), Some("doctor123")),
    Account(User("doc2", "dr.johnson@hospital.com", "Dr. Sarah Johnson", "+1234567892", "doctor", SeedCreatedAt), Some("doctor123")),
    Account(User("patient1", "patient@email.com", "Jane Doe", "+1234567893", "patient", SeedCreatedAt), Some("patient123"))
  ]

  predicate Matches(acc: Account, email: string, password: string)
  {
    acc.user.email == email && acc.password == Some(password)
  }

  /** `mockUsers.find(...)`: the first account with exactly that email and password. */
  function FindAccount(accounts: seq<Account>, email: string, password: string): (r: Option<nat>)
    ensures r.None? <==> forall i :: 0 <= i < |accounts| ==> !Matches(accounts[i], email, password)
    ensures r.Some? ==> r.value < |accounts| && Matches(accounts[r.value], email, password)
    ensures r.Some? ==> forall j :: 0 <= j < r.value ==> !Matches(accounts[j], email, password)
  {
    if |accounts| == 0 then None
    else if Matches(accounts[0], email, password) then Some(0)
    else match FindAccount(accounts[1..], email, password)
      case None => None
      case Some(k) => Some(k + 1)
  }

  /**
   * `login`: on a match the first matching profile becomes the session, without its password;
   * otherwise false and nothing changes. There is no role parameter.
   */
  function Login(st: AuthState, email: string, password: string): (r: (bool, AuthState))
    ensures r.0 <==> exists i :: 0 <= i < |st.accounts| && Matches(st.accounts[i], email, password)
    ensures r.1.accounts == st.accounts
    ensures !r.0 ==> r.1 == st
    ensures r.0 ==> exists i :: 0 <= i < |st.accounts| && Matches(st.accounts[i], email, password)
                               && r.1.session == Some(st.accounts[i].user)
                               && (forall j :: 0 <= j < i ==> !Matches(st.accounts[j], email, password))
  {
    match FindAccount(st.accounts, email, password)
      case None => (false, st)
      case Some(i) => (true, st.(session := Some(st.accounts[i].user)))
  }

  /** The patient login form passes 'patient' as a third argument, which `login` ignores: a doctor signs in. */
  lemma PatientFormSignsInDoctor()
    ensures Login(AuthState(SeedAccounts, None), "dr.smith@hospital.com", "doctor123").0
    ensures Login(AuthState(SeedAccounts, None), "dr.smith@hospital.com", "doctor123").1.session.value.role == "doctor"
  {
    assert Matches(SeedAccounts[1], "dr.smith@hospital.com", "doctor123");
  }

  /** A second login replaces whoever was signed in. */
  lemma LoginReplacesSession(st: AuthState, email: string, password: string, a: Account)
    requires a in st.accounts && Matches(a, email, password)
    ensures Login(st, email, password).1.session.Some?
    ensures Login(st, email, password).1.session.value.email == email
  {
  }

  /** `logout`: nobody is signed in; the account list stays. */
  function Logout(st: AuthState): (r: AuthState)
    ensures r.session.None? && r.accounts == st.accounts
  {
    st.(session := None)
  }

  /** The fields a registration form hands over; `id` and `password` may be missing. */
  datatype Registration = Registration(id: Option<string>, email: string, name: string, phone: string,
                                       role: string, password: Option<string>)

  /** `user_${Date.now()}`. */
  function GeneratedId(now: nat): (id: string)
    ensures |id| > 5 && id[..5] == "user_"
    ensures forall k :: 5 <= k < |id| ==> IsDigit(id[k])
    ensures DigitsValue(id[5..]) == now
  {
    DigitsValueOfNatToString(now);
    "user_" + NatToString(now)
  }

  /**
   * `register`: `{ id: generated, ...userData, createdAt: now }` appended to the account list and
   * signed in; a supplied id wins over the generated one, the clock wins over a supplied createdAt.
   * No duplicate check; the answer is always true.
   */
  function Register(st: AuthState, data: Registration, now: nat, createdAt: int): (r: (bool, AuthState))
    ensures r.0
    ensures |r.1.accounts| == |st.accounts| + 1 && r.1.accounts[..|st.accounts|] == st.accounts
    ensures var acc := r.1.accounts[|st.accounts|];
      && acc.user.id == (if data.id.Some? then data.id.value else GeneratedId(now))
      && acc.user.email == data.email && acc.user.name == data.name && acc.user.phone == data.phone
      && acc.user.role == data.role && acc.user.createdAt == createdAt && acc.password == data.password
      && r.1.session == Some(acc.user)
  {
    var user := User(data.id.GetOr(GeneratedId(now)), data.email, data.name, data.phone, data.role, createdAt);
    var acc := Account(user, data.password);
    (true, AuthState(st.accounts + [acc], Some(user)))
  }

  /**
   * Registering an email that is already taken succeeds; with the same password, a later login
   * finds the older account first.
   */
  lemma DuplicateRegistrationShadowed(st: AuthState, data: Registration, now: nat, createdAt: int, i: int)
    requires 0 <= i < |st.accounts| && data.password.Some?
    requires Matches(st.accounts[i], data.email, data.password.value)
    ensures Register(st, data, now, createdAt).0
    ensures var after := Register(st, data, now, createdAt).1;
      FindAccount(after.accounts, data.email, data.password.value).value < |st.accounts|
  {
    var after := Register(st, data, now, createdAt).1;
    assert after.accounts[i] == st.accounts[i];
  }

  /** A registration without a password can never log in. */
  lemma NoPasswordNoLogin(st: AuthState, data: Registration, now: nat, createdAt: int, password: string)
    requires data.password.None?
    ensures var after := Register(st, data, now, createdAt).1;
      !Matches(after.accounts[|st.accounts|], data.email, password)
  {
  }

  /** `mockUsers.find(u => u.email === email)`: the first account with that email. */
  function FindEmail(accounts: seq<Account>, email: string): (r: Option<nat>)
    ensures r.None? <==> forall i :: 0 <= i < |accounts| ==> accounts[i].user.email != email
    ensures r.Some? ==> r.value < |accounts| && accounts[r.value].user.email == email
    ensures r.Some? ==> forall j :: 0 <= j < r.value ==> accounts[j].user.email != email
  {
    if |accounts| == 0 then None
    else if accounts[0].user.email == email then Some(0)
    else match FindEmail(accounts[1..], email)
      case None => None
      case Some(k) => Some(k + 1)
  }

  /** `forgotPassword`: true exactly when some account has that email; nothing is sent or changed. */
  function ForgotPassword(st: AuthState, email: string): (r: bool)
    ensures r <==> exists i :: 0 <= i < |st.accounts| && st.accounts[i].user.email == email
  {
    FindEmail(st.accounts, email).Some?
  }

  /** Every email that can sign in is one `forgotPassword` recognises. */
  lemma LoginEmailIsKnown(st: AuthState, email: string, password: string)
    requires Login(st, email, password).0
    ensures ForgotPassword(st, email)
  {
  }

  /** Right after registering, `forgotPassword` recognises the new email, whatever came before. */
  lemma RegisteredEmailIsKnown(st: AuthState, data: Registration, now: nat, createdAt: int)
    ensures ForgotPassword(Register(st, data, now, createdAt).1, data.email)
  {
    var after := Register(st, data, now, createdAt).1;
    assert after.accounts[|st.accounts|].user.email == data.email;
  }

  /** `resetPassword`: answers true for any token and password and stores nothing. */
  function ResetPassword(st: AuthState, token: string, newPassword: string): (r: (bool, AuthState))
    ensures r.0 && r.1 == st
  {
    (true, st)
  }

  /** A reset does not let the new password in: login still wants the old one. */
  lemma ResetKeepsOldPassword(st: AuthState, token: string, email: string, oldPassword: string, newPassword: string)
    requires newPassword != oldPassword
    requires forall i :: 0 <= i < |st.accounts| && st.accounts[i].user.email == email ==> st.accounts[i].password == Some(oldPassword)
    requires ForgotPassword(st, email)
    ensures !Login(ResetPassword(st, token, newPassword).1, email, newPassword).0
    ensures Login(ResetPassword(st, token, newPassword).1, email, oldPassword).0
  {
  }
}

=== FILE: book_appointment.dfy ===
/**
 * The patient's booking page: the doctor search, the bookable dates of the
 * next fourteen days, the time points offered for a date, and the checks and
 * record construction of the booking submission.
 */
module BookAppointment {
  import opened Wrappers
  import opened Seqs
  import opened Text
  import opened Types
  import opened AppContext

  /** The doctor card filter: search term, selected specialization ("" = any), active only. */
  predicate DoctorMatches(d: Doctor, searchTerm: string, specialization: string)
  {
    && (IncludesIgnoringCase(d.name, searchTerm) || IncludesIgnoringCase(d.specialization, searchTerm))
    && (specialization == "" || d.specialization == specialization)
    && d.isActive
  }

  /** `filteredDoctors`. */
  function FilteredDoctors(doctors: seq<Doctor>, searchTerm: string, specialization: string): (r: seq<Doctor>)
    ensures forall d :: d in r <==> d in doctors && DoctorMatches(d, searchTerm, specialization)
    ensures IsSubseq(r, doctors)
    ensures forall d :: d in r ==> d.isActive
  {
    Filter(doctors, d => DoctorMatches(d, searchTerm, specialization))
  }

  /** An empty search without a specialization lists exactly the active doctors. */
  lemma EmptySearchListsActive(doctors: seq<Doctor>)
    ensures forall d :: d in FilteredDoctors(doctors, "", "") <==> d in doctors && d.isActive
  {
    forall d: Doctor
      ensures IncludesIgnoringCase(d.name, "")
    {
      EmptyIncluded(ToLower(d.name));
    }
  }

  /** `availability.some(slot => slot.day === dayName)`. */
  predicate HasSlot(slots: seq<TimeSlot>, dayName: string)
  {
    exists i :: 0 <= i < |slots| && slots[i].day == dayName
  }

  /** `availability.find(slot => slot.day === dayName)`: the first slot for that day. */
  function FindSlot(slots: seq<TimeSlot>, dayName: string): (r: Option<TimeSlot>)
    ensures r.Some? <==> HasSlot(slots, dayName)
    ensures r.Some? ==> exists i :: 0 <= i < |slots| && slots[i] == r.value && slots[i].day == dayName
                                   && forall j :: 0 <= j < i ==> slots[j].day != dayName
  {
    if |slots| == 0 then None
    else if slots[0].day == dayName then Some(slots[0])
    else
      var r := FindSlot(slots[1..], dayName);
      assert HasSlot(slots[1..], dayName) ==> HasSlot(slots, dayName) by {
        if HasSlot(slots[1..], dayName) {
          var i :| 0 <= i < |slots[1..]| && slots[1..][i].day == dayName;
          assert slots[i + 1].day == dayName;
        }
      }
      assert r.Some? ==> exists i :: 0 <= i < |slots| && slots[i] == r.value && slots[i].day == dayName
                                   && forall j :: 0 <= j < i ==> slots[j].day != dayName by {
        if r.Some? {
          var i :| 0 <= i < |slots[1..]| && slots[1..][i] == r.value && slots[1..][i].day == dayName
                   && forall j :: 0 <= j < i ==> slots[1..][j].day != dayName;
          assert slots[i + 1] == r.value;
          assert forall j :: 0 <= j < i + 1 ==> slots[j].day != dayName by {
            forall j | 0 <= j < i + 1
              ensures slots[j].day != dayName
            {
              if j > 0 { assert slots[j] == slots[1..][j - 1]; }
            }
          }
        }
      }
      r
  }

  /** The booking page offers day `d`: some slot names its weekday, no leave, not a weekend. */
  predicate IsOffered(doc: Doctor, d: int)
  {
    HasSlot(doc.availability, WeekdayName(DayOfWeek(d))) && d !in doc.leaveDays && !IsWeekend(d)
  }

  /** The loop of `getAvailableDates` over days `lo..hi`, keeping the days that pass `p`. */
  function DaysIn(lo: int, hi: int, p: int -> bool): (r: seq<int>)
    requires lo <= hi + 1
    ensures |r| <= hi + 1 - lo
    ensures forall k :: 0 <= k < |r| ==> lo <= r[k] <= hi
    ensures forall k, l :: 0 <= k < l < |r| ==> r[k] < r[l]
    ensures forall d :: d in r <==> lo <= d <= hi && p(d)
    ensures r == [] <==> forall d :: lo <= d <= hi ==> !p(d)
    decreases hi + 1 - lo
  {
    if lo > hi then []
    else
      var rest := DaysIn(lo + 1, hi, p);
      if p(lo) then
        assert forall d :: d in [lo] + rest <==> d == lo || d in rest;
        [lo] + rest
      else rest
  }

  /** `getAvailableDates`: the offered days among the fourteen after today, ascending. */
  function AvailableDates(doc: Doctor, today: int): (r: seq<int>)
    ensures |r| <= 14
    ensures forall k, l :: 0 <= k < l < |r| ==> r[k] < r[l]
    ensures forall d :: d in r <==> today + 1 <= d <= today + 14 && IsOffered(doc, d)
    ensures r == [] <==> forall d :: today + 1 <= d <= today + 14 ==> !IsOffered(doc, d)
  {
    DaysIn(today + 1, today + 14, d => IsOffered(doc, d))
  }

  /** A slot for Saturday or Sunday never yields a date: the weekend rule removes those days. */
  lemma WeekendSlotsYieldNothing(doc: Doctor, today: int)
    requires forall s :: s in doc.availability ==> s.day == "Saturday" || s.day == "Sunday"
    ensures AvailableDates(doc, today) == []
  {
    forall d | !IsWeekend(d)
      ensures !HasSlot(doc.availability, WeekdayName(DayOfWeek(d)))
    {
    }
  }

  /** `parseInt(time.split(':')[0])`: the hour, or `None` for NaN. */
  function ParseHour(time: string): (r: Option<nat>)
    ensures r.Some? <==> |time| > 0 && IsDigit(time[0])
  {
    var digits := LeadingDigits(BeforeColon(time));
    if |digits| == 0 then None else Some(DigitsValue(digits))
  }

  /** A time of day on the booking grid. */
  datatype TimePoint = TimePoint(hour: nat, minute: nat)

  function Minutes(t: TimePoint): nat
  {
    t.hour * 60 + t.minute
  }

  /** The points the loop emits for hours `start..end`: every `h:00`, and `h:30` unless `h` is the last hour. */
  predicate OnGrid(t: TimePoint, start: nat, end: nat)
  {
    start <= t.hour < end && (t.minute == 0 || (t.minute == 30 && t.hour + 1 < end))
  }

  /** The `for (hour = start; hour < end; hour++)` loop of `getAvailableTimes`, as points. */
  function Grid(start: nat, end: nat): (r: seq<TimePoint>)
    ensures |r| == if start < end then 2 * (end - start) - 1 else 0
    ensures forall t :: t in r <==> OnGrid(t, start, end)
    ensures forall k, l :: 0 <= k < l < |r| ==> Minutes(r[k]) < Minutes(r[l])
    ensures forall k :: 0 <= k < |r| ==> Minutes(r[k]) >= start * 60
    decreases end - start
  {
    if start >= end then []
    else
      [TimePoint(start, 0)]
      + (if start + 1 < end then [TimePoint(start, 30)] else [])
      + Grid(start + 1, end)
  }

  /** `hour.toString().padStart(2, '0')`. */
  function Pad2(n: nat): (r: string)
    ensures |r| >= 2
    ensures forall i :: 0 <= i < |r| ==> IsDigit(r[i])
    ensures DigitsValue(r) == n
  {
    DigitsValueOfNatToString(n);
    if n < 10 then "0" + NatToString(n) else NatToString(n)
  }

  /** The string the loop pushes for a point: `HH:00` or `HH:30`. */
  function FormatTime(t: TimePoint): string
  {
    Pad2(t.hour) + (if t.minute == 0 then ":00" else ":30")
  }

  /** Reads "H:M" back: the hour digits before the first colon and the minute digits after it. */
  function ParseTime(s: string): Option<TimePoint>
  {
    var h := LeadingDigits(BeforeColon(s));
    var rest := s[|BeforeColon(s)|..];
    if |h| == 0 || |rest| == 0 then None
    else
      var m := LeadingDigits(rest[1..]);
      if |m| == 0 then None else Some(TimePoint(DigitsValue(h), DigitsValue(m)))
  }

  lemma LeadingDigitsOfDigits(d: string, rest: string)
    requires forall i :: 0 <= i < |d| ==> IsDigit(d[i])
    requires |rest| == 0 || !IsDigit(rest[0])
    ensures LeadingDigits(d + rest) == d
  {
    if |d| > 0 {
      assert (d + rest)[1..] == d[1..] + rest;
      LeadingDigitsOfDigits(d[1..], rest);
    }
  }

  lemma BeforeColonOfDigits(d: string, rest: string)
    requires forall i :: 0 <= i < |d| ==> IsDigit(d[i])
    requires |rest| > 0 && rest[0] == ':'
    ensures BeforeColon(d + rest) == d
  {
    if |d| > 0 {
      assert (d + rest)[1..] == d[1..] + rest;
      BeforeColonOfDigits(d[1..], rest);
    }
  }

  /** Every emitted time string reads back as the point it renders; the hour also reads back through `ParseHour`. */
  lemma FormatTimeRoundTrip(t: TimePoint)
    requires t.minute == 0 || t.minute == 30
    ensures ParseTime(FormatTime(t)) == Some(t)
    ensures ParseHour(FormatTime(t)) == Some(t.hour)
  {
    FormattedHour(t);
    FormattedMinutes(t);
  }

  /** The digits before the colon of a rendered time are the padded hour. */
  lemma FormattedHour(t: TimePoint)
    requires t.minute == 0 || t.minute == 30
    ensures BeforeColon(FormatTime(t)) == Pad2(t.hour)
    ensures LeadingDigits(BeforeColon(FormatTime(t))) == Pad2(t.hour)
  {
    var p := Pad2(t.hour);
    BeforeColonOfDigits(p, if t.minute == 0 then ":00" else ":30");
    LeadingDigitsOfDigits(p, "");
    assert p + "" == p;
  }

  /** After the colon of a rendered time come the two minute digits. */
  lemma FormattedMinutes(t: TimePoint)
    requires t.minute == 0 || t.minute == 30
    ensures var s := FormatTime(t); |Pad2(t.hour)| < |s| && LeadingDigits(s[|Pad2(t.hour)|..][1..]) == (if t.minute == 0 then "00" else "30")
    ensures DigitsValue(if t.minute == 0 then "00" else "30") == t.minute
  {
    var p := Pad2(t.hour);
    var tail := if t.minute == 0 then ":00" else ":30";
    var s := FormatTime(t);
    assert s[|p|..] == tail;
    var mins := if t.minute == 0 then "00" else "30";
    assert tail[1..] == mins;
    LeadingDigitsOfDigits(mins, "");
    assert mins + "" == mins;
    TwoDigitsValue(mins);
  }

  lemma TwoDigitsValue(d: string)
    requires |d| == 2 && IsDigit(d[0]) && IsDigit(d[1])
    ensures DigitsValue(d) == (d[0] as int - '0' as int) * 10 + (d[1] as int - '0' as int)
  {
    assert d[..1][..0] == "";
    assert d[..1][0] == d[0];
    assert DigitsValue(d[..1]) == d[0] as int - '0' as int;
  }

  /** The slot's hours, when both parse. */
  function SlotHours(slot: TimeSlot): Option<(nat, nat)>
  {
    match (ParseHour(slot.startTime), ParseHour(slot.endTime))
    case (Some(s), Some(e)) => Some((s, e))
    case _ => None
  }

  /** The time strings for one slot; a NaN hour makes the loop condition false at once. */
  function SlotTimes(slot: TimeSlot): (r: seq<string>)
    ensures SlotHours(slot).None? ==> r == []
    ensures SlotHours(slot).Some? ==> |r| == |Grid(SlotHours(slot).value.0, SlotHours(slot).value.1)|
  {
    match SlotHours(slot)
    case None => []
    case Some((s, e)) =>
      var g := Grid(s, e);
      seq(|g|, k requires 0 <= k < |g| => FormatTime(g[k]))
  }

  /** The `k`-th string of a slot renders the `k`-th grid point and reads back as it. */
  lemma SlotTimeAt(slot: TimeSlot, s: nat, e: nat, k: int)
    requires SlotHours(slot) == Some((s, e))
    requires 0 <= k < |SlotTimes(slot)|
    ensures SlotTimes(slot)[k] == FormatTime(Grid(s, e)[k])
    ensures ParseTime(SlotTimes(slot)[k]) == Some(Grid(s, e)[k])
  {
    var g := Grid(s, e);
    assert g[k] in g;
    FormatTimeRoundTrip(g[k]);
  }

  /**
   * What `getAvailableTimes` promises for a slot whose hours parse as `s` and
   * `e`: exactly `2(e - s) - 1` strings when `s < e` (none otherwise), each
   * reading back as a grid point with hour in `[s, e)`, in strictly ascending
   * order.
   */
  lemma SlotTimesSpec(slot: TimeSlot, s: nat, e: nat)
    requires SlotHours(slot) == Some((s, e))
    ensures |SlotTimes(slot)| == (if s < e then 2 * (e - s) - 1 else 0)
    ensures forall k :: 0 <= k < |SlotTimes(slot)| ==>
              ParseTime(SlotTimes(slot)[k]).Some? && OnGrid(ParseTime(SlotTimes(slot)[k]).value, s, e)
    ensures forall k, l :: 0 <= k < l < |SlotTimes(slot)| ==>
              Minutes(ParseTime(SlotTimes(slot)[k]).value) < Minutes(ParseTime(SlotTimes(slot)[l]).value)
  {
    var g := Grid(s, e);
    forall k | 0 <= k < |SlotTimes(slot)|
      ensures ParseTime(SlotTimes(slot)[k]) == Some(g[k]) && OnGrid(g[k], s, e)
    {
      SlotTimeAt(slot, s, e, k);
      assert g[k] in g;
    }
  }

  /** Every grid point of the slot's hours is offered. */
  lemma SlotTimesComplete(slot: TimeSlot, s: nat, e: nat)
    requires SlotHours(slot) == Some((s, e))
    ensures forall t :: OnGrid(t, s, e) ==> FormatTime(t) in SlotTimes(slot)
  {
    var g := Grid(s, e);
    var r := SlotTimes(slot);
    forall t | OnGrid(t, s, e)
      ensures FormatTime(t) in r
    {
      var k :| 0 <= k < |g| && g[k] == t;
      assert r[k] == FormatTime(t);
    }
  }

  /** The half hour of the last hour, `(e-1):30`, is never offered. */
  lemma NoHalfHourAtEnd(slot: TimeSlot, s: nat, e: nat)
    requires SlotHours(slot) == Some((s, e))
    requires e > 0
    ensures FormatTime(TimePoint(e - 1, 30)) !in SlotTimes(slot)
  {
    var r := SlotTimes(slot);
    SlotTimesSpec(slot, s, e);
    FormatTimeRoundTrip(TimePoint(e - 1, 30));
    forall k | 0 <= k < |r|
      ensures r[k] != FormatTime(TimePoint(e - 1, 30))
    {
    }
  }

  /** `getAvailableTimes(doctor, date)`. */
  function AvailableTimes(doc: Doctor, date: int): (r: seq<string>)
    ensures !HasSlot(doc.availability, WeekdayName(DayOfWeek(date))) ==> r == []
    ensures r == [] || exists slot :: slot in doc.availability && slot.day == WeekdayName(DayOfWeek(date)) && r == SlotTimes(slot)
  {
    match FindSlot(doc.availability, WeekdayName(DayOfWeek(date)))
    case None => []
    case Some(slot) => SlotTimes(slot)
  }

  /**
   * Only the first slot for the date's weekday counts: later slots for the same
   * day, and the absence of any slot (which gives no times), are as the loop sees them.
   */
  lemma FirstSlotOnly(doc: Doctor, date: int, i: int)
    requires 0 <= i < |doc.availability|
    requires doc.availability[i].day == WeekdayName(DayOfWeek(date))
    requires forall j :: 0 <= j < i ==> doc.availability[j].day != WeekdayName(DayOfWeek(date))
    ensures AvailableTimes(doc, date) == SlotTimes(doc.availability[i])
  {
    var name := WeekdayName(DayOfWeek(date));
    var r := FindSlot(doc.availability, name);
    var k :| 0 <= k < |doc.availability| && doc.availability[k] == r.value && doc.availability[k].day == name
             && forall j :: 0 <= j < k ==> doc.availability[j].day != name;
    assert k == i;
  }

  /** A day with no slot for its weekday has no times. */
  lemma NoSlotNoTimes(doc: Doctor, date: int)
    requires !HasSlot(doc.availability, WeekdayName(DayOfWeek(date)))
    ensures AvailableTimes(doc, date) == []
  {
  }

  /**
   * Every offered date has a slot to take times from: the `some` that admitted
   * the date guarantees that `find` succeeds for it.
   */
  lemma OfferedDateHasSlot(doc: Doctor, today: int, d: int)
    requires d in AvailableDates(doc, today)
    ensures FindSlot(doc.availability, WeekdayName(DayOfWeek(d))).Some?
  {
  }

  /** With 09:00-11:00 on the weekday, the page offers 09:00, 09:30 and 10:00, not 10:30. */
  lemma NineToElevenExample()
    ensures SlotTimes(TimeSlot("Monday", "09:00", "11:00")) == ["09:00", "09:30", "10:00"]
  {
    ExampleSlotHours();
    ExampleGrid();
    RenderedHour(9);
    RenderedHour(10);
  }

  /** The example slot's hours parse to 9 and 11. */
  lemma ExampleSlotHours()
    ensures SlotHours(TimeSlot("Monday", "09:00", "11:00")) == Some((9, 11))
  {
    RenderedHour(9);
    RenderedHour(11);
  }

  /** The grid of the example slot. */
  lemma ExampleGrid()
    ensures Grid(9, 11) == [TimePoint(9, 0), TimePoint(9, 30), TimePoint(10, 0)]
  {
    assert Grid(11, 11) == [];
    assert Grid(10, 11) == [TimePoint(10, 0)];
  }

  /** The rendered forms of the two-digit hours of the example. */
  lemma RenderedHour(h: nat)
    requires 10 <= h < 100 || h == 9
    ensures h == 9 ==> FormatTime(TimePoint(h, 0)) == "09:00" && FormatTime(TimePoint(h, 30)) == "09:30"
    ensures h == 10 ==> FormatTime(TimePoint(h, 0)) == "10:00"
    ensures h == 11 ==> FormatTime(TimePoint(h, 0)) == "11:00"
    ensures ParseHour(FormatTime(TimePoint(h, 0))) == Some(h)
  {
    FormatTimeRoundTrip(TimePoint(h, 0));
    if h >= 10 {
      assert NatToString(h) == NatToString(h / 10) + [DigitChar(h % 10)];
    }
  }

  /** Why a submission is refused: "Please fill in all fields". */
  datatype BookingError = MissingFields

  /**
   * `handleSubmitBooking`: refuses unless a doctor, date and time are chosen and
   * the reason is not blank; otherwise appends a pending appointment for the
   * signed-in patient with the chosen doctor.
   */
  function SubmitBooking(apps: seq<Appointment>, user: User, doctor: Option<Doctor>, date: Option<int>,
                         time: string, reason: string, id: string, createdAt: int): (r: Result<seq<Appointment>, BookingError>)
    ensures r.Success? <==> doctor.Some? && date.Some? && time != "" && !IsBlank(reason)
    ensures r.Success? ==>
      var v := r.value;
      && |v| == |apps| + 1 && v[..|apps|] == apps
      && v[|apps|].status == Pending
      && v[|apps|].patientId == user.id && v[|apps|].patientName == user.name
      && v[|apps|].doctorId == doctor.value.id && v[|apps|].doctorName == doctor.value.name
      && v[|apps|].doctorSpecialization == doctor.value.specialization
      && v[|apps|].date == date.value && v[|apps|].time == time && v[|apps|].reason == reason
      && v[|apps|].id == id && v[|apps|].createdAt == createdAt
  {
    if doctor.None? || date.None? || time == "" || IsBlank(reason) then Failure(MissingFields)
    else
      var d := AppointmentDraft(user.id, doctor.value.id, user.name, doctor.value.name,
                                doctor.value.specialization, date.value, time, Pending, reason);
      Success(AddAppointment(apps, d, id, createdAt))
  }
}

=== FILE: doctor_appointments.dfy ===
/** The doctor's appointment page: own appointments, status filter, date-then-time order, counts. */
module DoctorAppointments {
  import opened Seqs
  import opened Text
  import opened Types
  import opened AppointmentViews

  /** `doctorAppointments`: the appointments booked with the signed-in doctor. */
  function Mine(apps: seq<Appointment>, userId: string): (r: seq<Appointment>)
    ensures forall a :: a in r <==> a in apps && a.doctorId == userId
    ensures IsSubseq(r, apps)
    ensures |r| == |apps| <==> forall a :: a in apps ==> a.doctorId == userId
  {
    var mine := (a: Appointment) => a.doctorId == userId;
    FilterFullIffAll(apps, mine);
    Filter(apps, mine)
  }

  /** The sort comparator: earlier date first, same date by time string. */
  predicate DateTimeLe(a: Appointment, b: Appointment)
  {
    a.date < b.date || (a.date == b.date && StrLe(a.time, b.time))
  }

  lemma DateTimeLeIsTotalPreorder()
    ensures TotalPreorder(DateTimeLe)
  {
    forall a: Appointment, b: Appointment
      ensures DateTimeLe(a, b) || DateTimeLe(b, a)
    {
      StrLeTotal(a.time, b.time);
    }
    forall a: Appointment, b: Appointment, c: Appointment | DateTimeLe(a, b) && DateTimeLe(b, c)
      ensures DateTimeLe(a, c)
    {
      if a.date == b.date == c.date {
        StrLeTrans(a.time, b.time, c.time);
      }
    }
  }

  /**
   * `sortedAppointments`: the doctor's appointments passing the status filter,
   * ascending by date and, within a date, by time.
   */
  function Listed(apps: seq<Appointment>, userId: string, key: string): (r: seq<Appointment>)
    ensures multiset(r) == multiset(ByStatusKey(Mine(apps, userId), key))
    ensures forall a :: a in r <==> a in apps && a.doctorId == userId && (key == "all" || StatusName(a.status) == key)
    ensures forall i, j :: 0 <= i < j < |r| ==>
              r[i].date < r[j].date || (r[i].date == r[j].date && StrLe(r[i].time, r[j].time))
  {
    DateTimeLeIsTotalPreorder();
    var shown := ByStatusKey(Mine(apps, userId), key);
    var r := SortBy(shown, DateTimeLe);
    assert forall a :: a in r <==> a in multiset(shown);
    r
  }

  /** `statusCounts` over the doctor's appointments. */
  function PageCounts(apps: seq<Appointment>, userId: string): (c: StatusCounts)
    ensures c.all == |Mine(apps, userId)|
    ensures CountsShowLists(Mine(apps, userId), c)
    ensures c.all == c.pending + c.confirmed + c.completed + c.cancelled + c.rejected
    ensures c.all <= |apps|
    ensures c.all == |apps| <==> forall a :: a in apps ==> a.doctorId == userId
  {
    SubseqLength(Mine(apps, userId), apps);
    Counts(Mine(apps, userId))
  }
}

=== FILE: doctor_dashboard.dfy ===
/** The doctor's dashboard: pending requests, today's and tomorrow's confirmed schedule. */
module DoctorDashboard {
  import opened Seqs
  import opened Text
  import opened Types
  import DoctorAppointments

  /** `pendingAppointments`: the doctor's appointments awaiting an answer. */
  function PendingList(apps: seq<Appointment>, userId: string): (r: seq<Appointment>)
    ensures forall a :: a in r <==> a in apps && a.doctorId == userId && a.status == Pending
    ensures IsSubseq(r, apps)
  {
    var mine := DoctorAppointments.Mine(apps, userId);
    var r := Filter(mine, (a: Appointment) => a.status == Pending);
    SubseqTrans(r, mine, apps);
    r
  }

  /** `pendingAppointments.slice(0, 5)`: the pending requests shown, at most five, in store order. */
  function PendingShown(apps: seq<Appointment>, userId: string): (r: seq<Appointment>)
    ensures |r| <= 5
    ensures r <= PendingList(apps, userId)
    ensures var n := |PendingList(apps, userId)|; |r| == if n < 5 then n else 5
    ensures forall a :: a in r ==> a.doctorId == userId && a.status == Pending
  {
    Take(PendingList(apps, userId), 5)
  }

  /** The schedule comparator `a.time.localeCompare(b.time)`. */
  predicate TimeLe(a: Appointment, b: Appointment)
  {
    StrLe(a.time, b.time)
  }

  lemma TimeLeIsTotalPreorder()
    ensures TotalPreorder(TimeLe)
  {
    forall a: Appointment, b: Appointment
      ensures TimeLe(a, b) || TimeLe(b, a)
    {
      StrLeTotal(a.time, b.time);
    }
    forall a: Appointment, b: Appointment, c: Appointment | TimeLe(a, b) && TimeLe(b, c)
      ensures TimeLe(a, c)
    {
      StrLeTrans(a.time, b.time, c.time);
    }
  }

  /** The doctor's confirmed appointments on day `day`, in store order, before the time sort. */
  function ConfirmedPicked(apps: seq<Appointment>, userId: string, day: int): (r: seq<Appointment>)
    ensures forall a :: a in r <==> a in apps && a.doctorId == userId && a.status == Confirmed && a.date == day
    ensures IsSubseq(r, apps)
  {
    var mine := DoctorAppointments.Mine(apps, userId);
    var r := Filter(mine, (a: Appointment) => a.date == day && a.status == Confirmed);
    SubseqTrans(r, mine, apps);
    r
  }

  /** The doctor's confirmed appointments on day `day`, ordered by time: a reordering of the pick. */
  function ConfirmedOn(apps: seq<Appointment>, userId: string, day: int): (r: seq<Appointment>)
    ensures forall a :: a in r <==> a in apps && a.doctorId == userId && a.status == Confirmed && a.date == day
    ensures multiset(r) == multiset(ConfirmedPicked(apps, userId, day))
    ensures forall i, j :: 0 <= i < j < |r| ==> StrLe(r[i].time, r[j].time)
  {
    TimeLeIsTotalPreorder();
    var picked := ConfirmedPicked(apps, userId, day);
    SortByMembers(picked, TimeLe);
    SortBy(picked, TimeLe)
  }

  /** Today's schedule (`isToday`, confirmed only, sorted by time). */
  function TodaySchedule(apps: seq<Appointment>, userId: string, today: int): (r: seq<Appointment>)
    ensures forall a :: a in r <==> a in apps && a.doctorId == userId && a.status == Confirmed && a.date == today
    ensures multiset(r) == multiset(ConfirmedPicked(apps, userId, today))
    ensures forall i, j :: 0 <= i < j < |r| ==> StrLe(r[i].time, r[j].time)
  {
    ConfirmedOn(apps, userId, today)
  }

  /** Tomorrow's preview (`isTomorrow`, confirmed only, sorted by time). */
  function TomorrowSchedule(apps: seq<Appointment>, userId: string, today: int): (r: seq<Appointment>)
    ensures forall a :: a in r <==> a in apps && a.doctorId == userId && a.status == Confirmed && a.date == today + 1
    ensures multiset(r) == multiset(ConfirmedPicked(apps, userId, today + 1))
    ensures forall i, j :: 0 <= i < j < |r| ==> StrLe(r[i].time, r[j].time)
  {
    ConfirmedOn(apps, userId, today + 1)
  }

  /** Today's and tomorrow's schedules never share an appointment. */
  lemma SchedulesDisjoint(apps: seq<Appointment>, userId: string, today: int)
    ensures forall a :: a in TodaySchedule(apps, userId, today) ==> a !in TomorrowSchedule(apps, userId, today)
  {
  }

  /** The prescription counter: prescriptions written by the signed-in doctor. */
  function PrescriptionCount(ps: seq<Prescription>, userId: string): (n: nat)
    ensures n <= |ps|
    ensures n == |ps| <==> forall p :: p in ps ==> p.doctorId == userId
    ensures n == |set i | 0 <= i < |ps| && ps[i].doctorId == userId|
  {
    FilterFullIffAll(ps, WrittenBy(userId));
    OwnCountIsPositionCount(ps, userId);
    |Filter(ps, WrittenBy(userId))|
  }

  /** The counter's filter: the prescription was written by `userId`. */
  function WrittenBy(userId: string): Prescription -> bool
  {
    (p: Prescription) => p.doctorId == userId
  }

  /** The doctor's filtered prescriptions are as many as the positions holding one of theirs. */
  lemma OwnCountIsPositionCount(ps: seq<Prescription>, userId: string)
    ensures |Filter(ps, WrittenBy(userId))| == |set i | 0 <= i < |ps| && ps[i].doctorId == userId|
  {
    var own := WrittenBy(userId);
    FilterLengthIsIndexCount(ps, own);
    var byField := set i | 0 <= i < |ps| && ps[i].doctorId == userId;
    assert Positions(ps, own) == byField;
  }
}

=== FILE: doctor_prescriptions.dfy ===
/** The doctor's prescription page: own prescriptions, the appointment picker and the creation form. */
module DoctorPrescriptions {
  import opened Wrappers
  import opened Seqs
  import opened Text
  import opened Types
  import opened AppContext
  import PrescriptionViews
  import PatientPrescriptions

  /** `doctorPrescriptions`. */
  function Own(ps: seq<Prescription>, userId: string): (r: seq<Prescription>)
    ensures forall p :: p in r <==> p in ps && p.doctorId == userId
    ensures IsSubseq(r, ps)
  {
    Filter(ps, (p: Prescription) => p.doctorId == userId)
  }

  /** `completedAppointments`: the choices the appointment picker offers. */
  function CompletedAppointments(apps: seq<Appointment>, userId: string): (r: seq<Appointment>)
    ensures forall a :: a in r <==> a in apps && a.doctorId == userId && a.status == Completed
    ensures IsSubseq(r, apps)
  {
    Filter(apps, (a: Appointment) => a.doctorId == userId && a.status == Completed)
  }

  function PatientNameOf(p: Prescription): Option<string>
  {
    p.patientName
  }

  /**
   * `sortedPrescriptions`: own prescriptions whose patient name or medications contain the term,
   * newest first; `None` when one of them has no patient name and the filter throws.
   */
  function Listed(ps: seq<Prescription>, userId: string, term: string): (r: Option<seq<Prescription>>)
    ensures r.None? <==> exists p :: p in ps && p.doctorId == userId && p.patientName.None?
    ensures r.Some? ==> forall p :: p in r.value <==>
      p in ps && p.doctorId == userId && PrescriptionViews.Matches(p.patientName.value, p, term)
    ensures r.Some? ==> forall i, j :: 0 <= i < j < |r.value| ==> r.value[i].createdAt >= r.value[j].createdAt
    ensures r.Some? ==> multiset(r.value) == multiset(PrescriptionViews.Search(Own(ps, userId), term, PatientNameOf).value)
  {
    PrescriptionViews.Listed(Own(ps, userId), term, PatientNameOf)
  }

  /** The first appointment with that id, searched among all appointments. */
  function FindAppointment(apps: seq<Appointment>, id: string): (r: Option<Appointment>)
    ensures r.None? <==> forall a :: a in apps ==> a.id != id
    ensures r.Some? ==> r.value in apps && r.value.id == id
    ensures r.Some? ==> exists i :: 0 <= i < |apps| && apps[i] == r.value && forall j :: 0 <= j < i ==> apps[j].id != id
  {
    if |apps| == 0 then None
    else if apps[0].id == id then Some(apps[0])
    else
      var r := FindAppointment(apps[1..], id);
      assert forall a :: a in apps <==> a == apps[0] || a in apps[1..];
      if r.Some? then
        var i :| 0 <= i < |apps[1..]| && apps[1..][i] == r.value && forall j :: 0 <= j < i ==> apps[1..][j].id != id;
        assert apps[i + 1] == r.value && forall j :: 0 <= j < i + 1 ==> apps[j].id != id;
        r
      else r
  }

  /** Why `handleSubmit` stopped: an empty field, or an id that matches no appointment. */
  datatype SubmitError = MissingFields | AppointmentNotFound

  /** The record `handleSubmit` hands to `addPrescription`: no patient or doctor name is filled in. */
  function DraftFor(appointment: Appointment, selected: string, doctorId: string, meds: string, instr: string): (d: PrescriptionDraft)
    ensures d.appointmentId == selected && d.patientId == appointment.patientId && d.doctorId == doctorId
    ensures d.patientName.None? && d.doctorName.None?
    ensures d.medications == meds && d.instructions == instr
  {
    PrescriptionDraft(selected, appointment.patientId, doctorId, None, None, meds, instr)
  }

  /**
   * `handleSubmit`, followed by the store's `addPrescription`. `Success` means the record was
   * appended. The page itself cannot tell: `addPrescription` returns nothing, so the awaited
   * `success` is `undefined`. The page then alerts "Failed to create prescription" and keeps the
   * form filled, and submitting again appends a second, identical prescription.
   */
  function Submit(apps: seq<Appointment>, ps: seq<Prescription>, doctorId: string, selected: string,
                  meds: string, instr: string, id: string, createdAt: int): (r: Result<seq<Prescription>, SubmitError>)
    ensures r.Failure? && r.error == MissingFields <==> selected == "" || IsBlank(meds) || IsBlank(instr)
    ensures r.Failure? && r.error == AppointmentNotFound <==>
      selected != "" && !IsBlank(meds) && !IsBlank(instr) && forall a :: a in apps ==> a.id != selected
    ensures r.Success? ==> |r.value| == |ps| + 1 && r.value[..|ps|] == ps
    ensures r.Success? ==> var p := r.value[|ps|];
      && p.id == id && p.createdAt == createdAt && p.appointmentId == selected && p.doctorId == doctorId
      && p.patientId == FindAppointment(apps, selected).value.patientId
      && p.patientName.None? && p.doctorName.None?
      && p.medications == meds && p.instructions == instr
  {
    if selected == "" || IsBlank(meds) || IsBlank(instr) then Failure(MissingFields)
    else match FindAppointment(apps, selected)
      case None => Failure(AppointmentNotFound)
      case Some(a) => Success(AddPrescription(ps, DraftFor(a, selected, doctorId, meds, instr), id, createdAt))
  }

  /**
   * The id is looked up among all appointments, not only the completed ones the picker offers:
   * a pending appointment of another doctor is accepted just the same.
   */
  lemma SubmitAcceptsAnyListedAppointment(apps: seq<Appointment>, ps: seq<Prescription>, doctorId: string,
                                          i: int, meds: string, instr: string, id: string, createdAt: int)
    requires 0 <= i < |apps| && apps[i].id != ""
    requires !IsBlank(meds) && !IsBlank(instr)
    ensures Submit(apps, ps, doctorId, apps[i].id, meds, instr, id, createdAt).Success?
  {
    assert apps[i] in apps;
  }

  /**
   * A created prescription carries no patient or doctor name, so afterwards the doctor's list
   * throws, and so does the patient's.
   */
  lemma CreatedPrescriptionBreaksSearch(apps: seq<Appointment>, ps: seq<Prescription>, doctorId: string,
                                        selected: string, meds: string, instr: string, id: string, createdAt: int,
                                        term: string)
    requires Submit(apps, ps, doctorId, selected, meds, instr, id, createdAt).Success?
    ensures Listed(Submit(apps, ps, doctorId, selected, meds, instr, id, createdAt).value, doctorId, term).None?
    ensures var patientId := FindAppointment(apps, selected).value.patientId;
      PatientPrescriptions.Listed(Submit(apps, ps, doctorId, selected, meds, instr, id, createdAt).value, patientId, term).None?
  {
    var r := Submit(apps, ps, doctorId, selected, meds, instr, id, createdAt).value;
    assert r[|ps|] in r;
  }
}

=== FILE: layout.dfy ===
/** The page frame: the navigation links each role sees. */
module Layout {
  import opened Wrappers
  import opened Types
  import opened ProtectedRoute
  import opened AppRoutes

  /** One navigation link: its target and its label (the icon is left out). */
  datatype NavLink = NavLink(to: string, text: string)

  /** `getNavLinks`. */
  function NavLinks(user: Option<User>): (links: seq<NavLink>)
    ensures user.None? ==> links == []
    ensures user.Some? && user.value.role !in {"admin", "doctor", "patient"} ==> links == []
    ensures user.Some? && user.value.role == "admin" ==> |links| == 5
    ensures user.Some? && (user.value.role == "doctor" || user.value.role == "patient") ==> |links| == 4
    ensures forall i, j :: 0 <= i < j < |links| ==> links[i].to != links[j].to
    ensures |links| > 0 ==> links[0].to == RoleHome(user.value.role)
  {
    if user.None? then []
    else match user.value.role
      case "admin" => [
        NavLink("/admin", "Dashboard"), NavLink("/admin/doctors", "Doctors"),
        NavLink("/admin/appointments", "Appointments"), NavLink("/admin/patients", "Patients"),
        NavLink("/admin/prescriptions", "Prescriptions")]
      case "doctor" => [
        NavLink("/doctor", "Dashboard"), NavLink("/doctor/appointments", "Appointments"),
        NavLink("/doctor/prescriptions", "Prescriptions"), NavLink("/doctor/availability", "Availability")]
      case "patient" => [
        NavLink("/patient", "Dashboard"), NavLink("/patient/book", "Book Appointment"),
        NavLink("/patient/appointments", "My Appointments"), NavLink("/patient/prescriptions", "Prescriptions")]
      case _ => []
  }

  /** Every link a user sees leads to a page under their role's prefix that renders for them. */
  lemma NavLinksRender(u: User)
    ensures forall l :: l in NavLinks(Some(u)) ==> RoleHome(u.role) <= l.to && Resolve(Some(u), l.to) == Render
  {
    var links := NavLinks(Some(u));
    forall l | l in links
      ensures RoleHome(u.role) <= l.to && Resolve(Some(u), l.to) == Render
    {
      var i :| 0 <= i < |links| && links[i] == l;
      if u.role == "admin" {
        assert Routes[8 + i].path == l.to && u.role in Routes[8 + i].roles;
      } else if u.role == "doctor" {
        assert Routes[4 + i].path == l.to && u.role in Routes[4 + i].roles;
      } else {
        assert Routes[i].path == l.to && u.role in Routes[i].roles;
      }
    }
  }
}

=== FILE: lifecycle.dfy ===
/**
 * The appointment lifecycle. No component owns it: the legal status changes
 * are exactly the buttons each page renders for an appointment, and the store
 * update behind every button checks nothing. This module collects those
 * guards into one relation and proves what it implies for the store.
 */
module Lifecycle {
  import opened Wrappers
  import opened Types
  import opened AppContext

  /** The buttons the appointment pages render. */
  datatype Action = Confirm | Reject | Complete | AddPrescription | Cancel

  /**
   * The status a button writes. "Add Prescription" writes none: it sets `window.location.href`,
   * a full page load that restarts both stores from their seed data. That reload is not modelled,
   * so everything proved here about a run of presses holds within one page load.
   */
  function ActionTarget(act: Action): Option<Status>
  {
    match act
    case Confirm => Some(Confirmed)
    case Reject => Some(Rejected)
    case Complete => Some(Completed)
    case AddPrescription => None
    case Cancel => Some(Cancelled)
  }

  /**
   * The doctor's buttons: Confirm and Reject on a pending appointment, Complete
   * on a confirmed one whose date has begun (`new Date(date) <= new Date()`),
   * Add Prescription on a completed one.
   */
  function DoctorActions(status: Status, date: int, clock: Clock): (r: seq<Action>)
    ensures Confirm in r <==> status == Pending
    ensures Reject in r <==> status == Pending
    ensures Complete in r <==> status == Confirmed && Midnight(date) <= clock.Instant()
    ensures AddPrescription in r <==> status == Completed
    ensures Cancel !in r
  {
    (if status == Pending then [Confirm, Reject] else [])
    + (if status == Confirmed && Midnight(date) <= clock.Instant() then [Complete] else [])
    + (if status == Completed then [AddPrescription] else [])
  }

  /** `canCancelAppointment`: a patient may cancel while pending or confirmed. */
  predicate CanCancel(status: Status)
    ensures CanCancel(status) <==> !IsTerminal(status)
  {
    status == Pending || status == Confirmed
  }

  /** The patient's buttons: Cancel exactly when `CanCancel`. */
  function PatientActions(status: Status): (r: seq<Action>)
    ensures Cancel in r <==> CanCancel(status)
    ensures forall act :: act in r ==> act == Cancel
  {
    if CanCancel(status) then [Cancel] else []
  }

  /** The buttons shown to a role; the admin appointment page renders none. */
  function OfferedActions(role: Role, status: Status, date: int, clock: Clock): seq<Action>
  {
    match role
    case Admin => []
    case DoctorRole => DoctorActions(status, date, clock)
    case PatientRole => PatientActions(status)
  }

  /** A role may move an appointment from `from` to `target` when some offered button writes `target`. */
  predicate CanTransition(role: Role, from: Status, date: int, clock: Clock, target: Status)
    ensures CanTransition(role, from, date, clock, target) ==> !IsTerminal(from) && target != Pending && target != from
  {
    exists act :: act in OfferedActions(role, from, date, clock) && ActionTarget(act) == Some(target)
  }

  /** The transition table the page guards add up to, in both directions. */
  lemma TransitionTable(role: Role, from: Status, date: int, clock: Clock, target: Status)
    requires clock.Valid()
    ensures CanTransition(role, from, date, clock, target) <==>
      || (role == DoctorRole && from == Pending && (target == Confirmed || target == Rejected))
      || (role == DoctorRole && from == Confirmed && target == Completed && date <= clock.today)
      || (role == PatientRole && CanCancel(from) && target == Cancelled)
  {
    NotAfterNow(date, clock);
    var acts := OfferedActions(role, from, date, clock);
    if role == DoctorRole && from == Pending && target == Confirmed {
      assert Confirm in acts;
    } else if role == DoctorRole && from == Pending && target == Rejected {
      assert Reject in acts;
    } else if role == DoctorRole && from == Confirmed && target == Completed && date <= clock.today {
      assert Complete in acts;
    } else if role == PatientRole && CanCancel(from) && target == Cancelled {
      assert Cancel in acts;
    }
  }

  /** No role can move an appointment out of a terminal status. */
  lemma TerminalStaysTerminal(role: Role, from: Status, date: int, clock: Clock, target: Status)
    requires clock.Valid()
    requires IsTerminal(from)
    ensures !CanTransition(role, from, date, clock, target)
  {
    TransitionTable(role, from, date, clock, target);
  }

  /** The only button on a completed appointment is Add Prescription, which writes no status. */
  lemma CompletedOffersOnlyPrescription(role: Role, date: int, clock: Clock)
    ensures forall act :: act in OfferedActions(role, Completed, date, clock) ==>
              act == AddPrescription && ActionTarget(act) == None
    ensures role == DoctorRole ==> OfferedActions(role, Completed, date, clock) == [AddPrescription]
  {
  }

  /** Nothing moves an appointment back to pending: that status is only set at booking. */
  lemma NothingReturnsToPending(role: Role, from: Status, date: int, clock: Clock)
    ensures !CanTransition(role, from, date, clock, Pending)
  {
  }

  /** The appointment at `i` is on the list of the signed-in user with that role. */
  predicate ListedFor(role: Role, userId: string, a: Appointment)
  {
    match role
    case Admin => false
    case DoctorRole => a.doctorId == userId
    case PatientRole => a.patientId == userId
  }

  /**
   * Pressing button `act` on the listed appointment at `i`: `None` when that
   * button is not rendered for the user, otherwise the store after
   * `updateAppointment(id, { status })` (unchanged for Add Prescription).
   */
  function Press(apps: seq<Appointment>, role: Role, userId: string, clock: Clock, i: int, act: Action): (r: Option<seq<Appointment>>)
    requires 0 <= i < |apps|
    ensures r.Some? ==> |r.value| == |apps|
    ensures r.Some? <==> ListedFor(role, userId, apps[i]) && act in OfferedActions(role, apps[i].status, apps[i].date, clock)
  {
    var a := apps[i];
    if !ListedFor(role, userId, a) || act !in OfferedActions(role, a.status, a.date, clock) then None
    else match ActionTarget(act)
      case None => Some(apps)
      case Some(t) => Some(UpdateAppointment(apps, a.id, StatusPatch(t)))
  }

  /** With unique ids, a rendered button never alters a record in a terminal status. */
  lemma PressKeepsTerminalRecords(apps: seq<Appointment>, role: Role, userId: string, clock: Clock, i: int, act: Action)
    requires 0 <= i < |apps|
    requires UniqueIds(apps)
    requires Press(apps, role, userId, clock, i, act).Some?
    ensures UniqueIds(Press(apps, role, userId, clock, i, act).value)
    ensures forall j :: 0 <= j < |apps| && IsTerminal(apps[j].status) ==>
              Press(apps, role, userId, clock, i, act).value[j] == apps[j]
  {
    var a := apps[i];
    match ActionTarget(act)
    case None =>
    case Some(t) =>
      StatusUpdateKeepsIds(apps, a.id, t);
      var r := UpdateAppointment(apps, a.id, StatusPatch(t));
      assert !IsTerminal(a.status);
      forall j | 0 <= j < |apps| && IsTerminal(apps[j].status)
        ensures r[j] == apps[j]
      {
        assert j != i;
      }
  }

  /** One button press by some signed-in user. */
  datatype Click = Click(role: Role, userId: string, clock: Clock, index: int, act: Action)

  /** The store after a session of presses; a press on an absent index or hidden button does nothing. */
  function Run(apps: seq<Appointment>, presses: seq<Click>): (r: seq<Appointment>)
    ensures |r| == |apps|
    decreases |presses|
  {
    if |presses| == 0 then apps
    else
      var p := presses[0];
      var next :=
        if 0 <= p.index < |apps| then Press(apps, p.role, p.userId, p.clock, p.index, p.act).GetOr(apps)
        else apps;
      Run(next, presses[1..])
  }

  /** Over any session of presses, unique ids stay unique and terminal records never change. */
  lemma {:induction false} RunKeepsTerminalRecords(apps: seq<Appointment>, presses: seq<Click>)
    requires UniqueIds(apps)
    ensures UniqueIds(Run(apps, presses))
    ensures forall j :: 0 <= j < |apps| && IsTerminal(apps[j].status) ==> Run(apps, presses)[j] == apps[j]
    decreases |presses|
  {
    if |presses| > 0 {
      var p := presses[0];
      var next :=
        if 0 <= p.index < |apps| then Press(apps, p.role, p.userId, p.clock, p.index, p.act).GetOr(apps)
        else apps;
      if 0 <= p.index < |apps| && Press(apps, p.role, p.userId, p.clock, p.index, p.act).Some? {
        PressKeepsTerminalRecords(apps, p.role, p.userId, p.clock, p.index, p.act);
      }
      RunKeepsTerminalRecords(next, presses[1..]);
    }
  }

  /**
   * Unique ids are needed: with two records sharing an id, confirming the
   * pending one also rewrites the completed one.
   */
  lemma SharedIdRewritesTerminalRecord()
    ensures var pending := Appointment("a", "p", "d", "", "", "", 0, "09:00", Pending, "", 0);
            var done := pending.(status := Completed);
            var clock := Clock(0, 0);
            Press([pending, done], DoctorRole, "d", clock, 0, Confirm) == Some([pending.(status := Confirmed), done.(status := Confirmed)])
  {
    var pending := Appointment("a", "p", "d", "", "", "", 0, "09:00", Pending, "", 0);
    var done := pending.(status := Completed);
    assert Confirm in OfferedActions(DoctorRole, Pending, 0, Clock(0, 0));
    MergeStatusPatch(pending, Confirmed);
    MergeStatusPatch(done, Confirmed);
    var r := UpdateAppointment([pending, done], "a", StatusPatch(Confirmed));
    assert r[0] == pending.(status := Confirmed) && r[1] == done.(status := Confirmed);
    assert r == [pending.(status := Confirmed), done.(status := Confirmed)];
  }
}

=== FILE: patient_appointments.dfy ===
/** The patient's appointment page: own appointments, status filter, newest date first, cancellation, counts. */
module PatientAppointments {
  import opened Seqs
  import opened Types
  import opened AppContext
  import opened AppointmentViews

  /** `userAppointments`: the appointments the signed-in patient booked. */
  function Mine(apps: seq<Appointment>, userId: string): (r: seq<Appointment>)
    ensures forall a :: a in r <==> a in apps && a.patientId == userId
    ensures IsSubseq(r, apps)
    ensures |r| == |apps| <==> forall a :: a in apps ==> a.patientId == userId
  {
    var mine := (a: Appointment) => a.patientId == userId;
    FilterFullIffAll(apps, mine);
    Filter(apps, mine)
  }

  /** The sort comparator `b.date - a.date`: later dates first. */
  predicate DateDescLe(a: Appointment, b: Appointment)
  {
    a.date >= b.date
  }

  /** `sortedAppointments`: the patient's appointments passing the status filter, latest date first. */
  function Listed(apps: seq<Appointment>, userId: string, key: string): (r: seq<Appointment>)
    ensures multiset(r) == multiset(ByStatusKey(Mine(apps, userId), key))
    ensures forall a :: a in r <==> a in apps && a.patientId == userId && (key == "all" || StatusName(a.status) == key)
    ensures forall i, j :: 0 <= i < j < |r| ==> r[i].date >= r[j].date
  {
    var shown := ByStatusKey(Mine(apps, userId), key);
    var r := SortBy(shown, DateDescLe);
    assert forall a :: a in r <==> a in multiset(shown);
    r
  }

  /** `handleCancelAppointment`: writes "cancelled" into the record with that id and changes nothing else. */
  function CancelAppointment(apps: seq<Appointment>, id: string): (r: seq<Appointment>)
    ensures |r| == |apps|
    ensures forall i :: 0 <= i < |apps| && apps[i].id == id ==> r[i] == apps[i].(status := Cancelled)
    ensures forall i :: 0 <= i < |apps| && apps[i].id != id ==> r[i] == apps[i]
  {
    var r := UpdateAppointment(apps, id, StatusPatch(Cancelled));
    forall i | 0 <= i < |apps| && apps[i].id == id
      ensures r[i] == apps[i].(status := Cancelled)
    {
      MergeStatusPatch(apps[i], Cancelled);
    }
    r
  }

  /** `statusCounts` over the patient's appointments. */
  function PageCounts(apps: seq<Appointment>, userId: string): (c: StatusCounts)
    ensures c.all == |Mine(apps, userId)|
    ensures CountsShowLists(Mine(apps, userId), c)
    ensures c.all == c.pending + c.confirmed + c.completed + c.cancelled + c.rejected
    ensures c.all <= |apps|
    ensures c.all == |apps| <==> forall a :: a in apps ==> a.patientId == userId
  {
    SubseqLength(Mine(apps, userId), apps);
    Counts(Mine(apps, userId))
  }
}

=== FILE: patient_dashboard.dfy ===
/** The patient's dashboard: the next three appointments, recent prescriptions and counters. */
module PatientDashboard {
  import opened Seqs
  import opened Types
  import opened AppointmentViews
  import PatientAppointments

  /** The upcoming filter: on or after the current instant, and not cancelled (rejected and completed pass). */
  predicate IsUpcoming(a: Appointment, clock: Clock)
  {
    Midnight(a.date) >= clock.Instant() && a.status != Cancelled
  }

  /** The patient's appointments that pass the upcoming filter, in store order. */
  function Eligible(apps: seq<Appointment>, userId: string, clock: Clock): (r: seq<Appointment>)
    ensures forall a :: a in r <==> a in apps && a.patientId == userId && IsUpcoming(a, clock)
    ensures IsSubseq(r, apps)
  {
    var mine := PatientAppointments.Mine(apps, userId);
    var r := Filter(mine, (a: Appointment) => IsUpcoming(a, clock));
    SubseqTrans(r, mine, apps);
    r
  }

  /** The comparator `new Date(a.date) - new Date(b.date)`: earlier dates first. */
  predicate DateAscLe(a: Appointment, b: Appointment)
  {
    a.date <= b.date
  }

  lemma DateAscLeIsTotalPreorder()
    ensures TotalPreorder(DateAscLe)
  {
  }

  /** `upcomingAppointments`: the eligible appointments by ascending date, cut to three. */
  function Upcoming(apps: seq<Appointment>, userId: string, clock: Clock): (r: seq<Appointment>)
    ensures |r| == if |Eligible(apps, userId, clock)| < 3 then |Eligible(apps, userId, clock)| else 3
    ensures forall a :: a in r ==> a in Eligible(apps, userId, clock)
    ensures forall i, j :: 0 <= i < j < |r| ==> r[i].date <= r[j].date
    ensures multiset(r) <= multiset(Eligible(apps, userId, clock))
  {
    DateAscLeIsTotalPreorder();
    var sorted := SortBy(Eligible(apps, userId, clock), DateAscLe);
    SortByMembers(Eligible(apps, userId, clock), DateAscLe);
    Take(sorted, 3)
  }

  /** The three shown are the earliest: anything eligible but not shown is no earlier than every shown one. */
  lemma UpcomingAreEarliest(apps: seq<Appointment>, userId: string, clock: Clock, a: Appointment, b: Appointment)
    requires a in Upcoming(apps, userId, clock)
    requires b in Eligible(apps, userId, clock) && b !in Upcoming(apps, userId, clock)
    ensures a.date <= b.date
  {
    DateAscLeIsTotalPreorder();
    SortedPrefixDominates(Eligible(apps, userId, clock), DateAscLe, 3, a, b);
  }

  /** Under a valid clock, an upcoming appointment is dated after today, or today exactly at midnight. */
  lemma UpcomingNotPast(apps: seq<Appointment>, userId: string, clock: Clock, a: Appointment)
    requires clock.Valid()
    requires a in Upcoming(apps, userId, clock)
    ensures a.date > clock.today || (a.date == clock.today && clock.msOfDay == 0)
  {
    NotBeforeNow(a.date, clock);
  }

  /** A rejected appointment dated after today still counts as upcoming. */
  lemma RejectedStillUpcoming(apps: seq<Appointment>, userId: string, clock: Clock, a: Appointment)
    requires clock.Valid()
    requires a in apps && a.patientId == userId && a.status == Rejected && a.date > clock.today
    ensures a in Eligible(apps, userId, clock)
  {
    NotBeforeNow(a.date, clock);
  }

  /** `userPrescriptions`: the first three prescriptions of the signed-in patient, in store order. */
  function RecentPrescriptions(ps: seq<Prescription>, userId: string): (r: seq<Prescription>)
    ensures |r| <= 3
    ensures forall p :: p in r ==> p in ps && p.patientId == userId
    ensures r <= Filter(ps, (p: Prescription) => p.patientId == userId)
    ensures var n := |Filter(ps, (p: Prescription) => p.patientId == userId)|; |r| == if n < 3 then n else 3
  {
    Take(Filter(ps, (p: Prescription) => p.patientId == userId), 3)
  }

  /** The medication preview: texts over fifty characters are cut to fifty and marked with "...". */
  function MedicationPreview(meds: string): (r: string)
    ensures |r| <= 53
    ensures |meds| <= 50 ==> r == meds
    ensures |meds| > 50 ==> |r| == 53 && r[..50] == meds[..50] && r[50..] == "..."
    ensures r == meds <==> |meds| <= 50 || (|meds| == 53 && meds[50..] == "...")
  {
    if |meds| > 50 then meds[..50] + "..." else meds
  }

  /** The "Confirmed" counter is the count on the appointment page's "confirmed" button. */
  function ConfirmedCount(apps: seq<Appointment>, userId: string): (n: nat)
    ensures n <= |PatientAppointments.Mine(apps, userId)|
    ensures n == PatientAppointments.PageCounts(apps, userId).confirmed
    ensures n == |ByStatusKey(PatientAppointments.Mine(apps, userId), "confirmed")|
  {
    var mine := PatientAppointments.Mine(apps, userId);
    CountsPartition(mine);
    ButtonCountMatchesList(mine, Confirmed);
    CountStatus(mine, Confirmed)
  }
}

=== FILE: patient_prescriptions.dfy ===
/** The patient's prescription page: own prescriptions, search, and the PDF's line layout. */
module PatientPrescriptions {
  import opened Wrappers
  import opened Seqs
  import opened Text
  import opened Types
  import PrescriptionViews

  /** `userPrescriptions`. */
  function Mine(ps: seq<Prescription>, userId: string): (r: seq<Prescription>)
    ensures forall p :: p in r <==> p in ps && p.patientId == userId
    ensures IsSubseq(r, ps)
  {
    Filter(ps, (p: Prescription) => p.patientId == userId)
  }

  function DoctorNameOf(p: Prescription): Option<string>
  {
    p.doctorName
  }

  /**
   * `sortedPrescriptions`: own prescriptions whose doctor name or medications contain the term,
   * newest first; `None` when one of the patient's records has no doctor name and the filter throws.
   */
  function Listed(ps: seq<Prescription>, userId: string, term: string): (r: Option<seq<Prescription>>)
    ensures r.None? <==> exists p :: p in ps && p.patientId == userId && p.doctorName.None?
    ensures r.Some? ==> forall p :: p in r.value <==>
      p in ps && p.patientId == userId && PrescriptionViews.Matches(p.doctorName.value, p, term)
    ensures r.Some? ==> forall i, j :: 0 <= i < j < |r.value| ==> r.value[i].createdAt >= r.value[j].createdAt
    ensures r.Some? ==> multiset(r.value) == multiset(PrescriptionViews.Search(Mine(ps, userId), term, DoctorNameOf).value)
  {
    PrescriptionViews.Listed(Mine(ps, userId), term, DoctorNameOf)
  }

  /** Bottom of the usable page: a line may start at y = 270 at most. */
  const PageBottom := 270
  /** Where a fresh page starts. */
  const PageTop := 20
  const LineHeight := 10
  /** The first medication line, below the "Medications:" heading at 110. */
  const FirstMedicationY := 120

  /** One `doc.text` call: the text, its y and the page it lands on (pages counted from 1). */
  datatype Placed = Placed(text: string, y: int, page: nat)

  /** The cursor after drawing: the next y and the current page. */
  datatype Drawn = Drawn(lines: seq<Placed>, nextY: int, page: nat)

  /** Where a line goes from cursor `y`: a new page starts exactly when the cursor is past the bottom. */
  function Place(y: int): int
  {
    if y > PageBottom then PageTop else y
  }

  predicate CursorOk(y: int)
  {
    PageTop <= y <= PageBottom + LineHeight && y % LineHeight == 0
  }

  /** A line lies inside the usable band of its page, on the 10-unit grid. */
  predicate InBand(l: Placed)
  {
    PageTop <= l.y <= PageBottom && l.y % LineHeight == 0
  }

  /** `next` is drawn right after `prev`: one line lower, or at the top of a new page once past the bottom. */
  predicate FollowsLine(prev: Placed, next: Placed)
  {
    var c := prev.y + LineHeight;
    next.y == Place(c) && next.page == prev.page + (if c > PageBottom then 1 else 0)
  }

  /** The `forEach` that draws one line per segment, breaking pages as it goes. */
  function DrawLines(texts: seq<string>, y: int, page: nat): (d: Drawn)
    requires CursorOk(y)
    ensures |d.lines| == |texts|
    ensures forall k :: 0 <= k < |texts| ==> d.lines[k].text == texts[k]
    ensures forall k :: 0 <= k < |texts| ==> InBand(d.lines[k])
    ensures |texts| > 0 ==> d.lines[0].y == Place(y) && d.lines[0].page == page + (if y > PageBottom then 1 else 0)
    ensures forall k :: 0 < k < |texts| ==> FollowsLine(d.lines[k - 1], d.lines[k])
    ensures |texts| == 0 ==> d.nextY == y && d.page == page
    ensures |texts| > 0 ==> d.nextY == d.lines[|texts| - 1].y + LineHeight && d.page == d.lines[|texts| - 1].page
    ensures CursorOk(d.nextY) && d.page >= page
    decreases |texts|
  {
    if |texts| == 0 then Drawn([], y, page)
    else
      var p := if y > PageBottom then page + 1 else page;
      var first := Placed(texts[0], Place(y), p);
      var rest := DrawLines(texts[1..], Place(y) + LineHeight, p);
      Drawn([first] + rest.lines, rest.nextY, rest.page)
  }

  /** Everything `downloadPrescriptionPDF` places below the fixed header block. */
  datatype PdfLayout = PdfLayout(medications: seq<Placed>, instructionsHeader: Option<Placed>, instructions: seq<Placed>)

  function Layout(p: Prescription): (l: PdfLayout)
    ensures |l.medications| == Occurrences(p.medications, '\n') + 1
    ensures Join(seq(|l.medications|, k requires 0 <= k < |l.medications| => l.medications[k].text), '\n') == p.medications
    ensures forall k :: 0 <= k < |l.medications| ==> PageTop <= l.medications[k].y <= PageBottom && l.medications[k].y % LineHeight == 0
    ensures l.instructionsHeader.None? <==> p.instructions == ""
    ensures p.instructions == "" ==> l.instructions == []
    ensures l.instructionsHeader.Some? ==> PageTop <= l.instructionsHeader.value.y <= PageBottom
    ensures p.instructions != "" ==> |l.instructions| == Occurrences(p.instructions, '\n') + 1
    ensures forall k :: 0 <= k < |l.instructions| ==> PageTop <= l.instructions[k].y <= PageBottom && l.instructions[k].y % LineHeight == 0
  {
    var meds := DrawLines(Split(p.medications, '\n'), FirstMedicationY, 1);
    JoinSplit(p.medications, '\n');
    assert seq(|meds.lines|, k requires 0 <= k < |meds.lines| => meds.lines[k].text) == Split(p.medications, '\n');
    if p.instructions == "" then PdfLayout(meds.lines, None, [])
    else
      var c := meds.nextY + LineHeight;
      var header := Placed("Instructions:", Place(c), if c > PageBottom then meds.page + 1 else meds.page);
      var ins := DrawLines(Split(p.instructions, '\n'), header.y + LineHeight, header.page);
      PdfLayout(meds.lines, Some(header), ins.lines)
  }

  /** Up to sixteen medication lines fit on the first page, from y = 120 down to y = 270. */
  lemma {:induction false} ShortListsStayOnFirstPage(texts: seq<string>, k: nat)
    requires |texts| <= 16 && k < |texts|
    ensures DrawLines(texts, FirstMedicationY, 1).lines[k].y == FirstMedicationY + LineHeight * k
    ensures DrawLines(texts, FirstMedicationY, 1).lines[k].page == 1
  {
    if k > 0 {
      ShortListsStayOnFirstPage(texts, k - 1);
    }
  }

  /** The seventeenth medication line starts the second page at the top. */
  lemma SeventeenthLineBreaksPage(texts: seq<string>)
    requires |texts| == 17
    ensures DrawLines(texts, FirstMedicationY, 1).lines[16].y == PageTop
    ensures DrawLines(texts, FirstMedicationY, 1).lines[16].page == 2
  {
    ShortListsStayOnFirstPage(texts[..16], 15);
    PrefixDrawsAlike(texts, 16, FirstMedicationY, 1, 15);
  }

  /** Drawing a prefix places its lines where drawing the whole list does. */
  lemma {:induction false} PrefixDrawsAlike(texts: seq<string>, n: nat, y: int, page: nat, k: nat)
    requires CursorOk(y)
    requires k < n <= |texts|
    ensures DrawLines(texts[..n], y, page).lines[k] == DrawLines(texts, y, page).lines[k]
    decreases k
  {
    var a := DrawLines(texts[..n], y, page);
    var b := DrawLines(texts, y, page);
    if k == 0 {
      assert a.lines[0].y == Place(y) == b.lines[0].y;
      assert a.lines[0].page == b.lines[0].page;
    } else {
      PrefixDrawsAlike(texts, n, y, page, k - 1);
      assert FollowsLine(a.lines[k - 1], a.lines[k]);
      assert FollowsLine(b.lines[k - 1], b.lines[k]);
    }
    assert texts[..n][k] == texts[k];
    assert a.lines[k].text == b.lines[k].text;
  }
}

=== FILE: prescription_views.dfy ===
/**
 * What the two prescription pages share: the search over a name column and the
 * medications, and the newest-first order.
 */
module PrescriptionViews {
  import opened Wrappers
  import opened Seqs
  import opened Text
  import opened Types

  /** The sort comparator `createdAt(b) - createdAt(a)`. */
  predicate NewerPrescription(a: Prescription, b: Prescription)
  {
    a.createdAt >= b.createdAt
  }

  lemma NewerPrescriptionIsTotalPreorder()
    ensures TotalPreorder(NewerPrescription)
  {
  }

  /** A prescription list sorted newest first. */
  function NewestFirst(ps: seq<Prescription>): (r: seq<Prescription>)
    ensures multiset(r) == multiset(ps)
    ensures forall p :: p in r <==> p in ps
    ensures forall i, j :: 0 <= i < j < |r| ==> r[i].createdAt >= r[j].createdAt
  {
    NewerPrescriptionIsTotalPreorder();
    SortByMembers(ps, NewerPrescription);
    SortBy(ps, NewerPrescription)
  }

  /** The search predicate once the name is known to be present. */
  predicate Matches(name: string, p: Prescription, term: string)
  {
    IncludesIgnoringCase(name, term) || IncludesIgnoringCase(p.medications, term)
  }

  /**
   * `ps.filter(p => nameOf(p).toLowerCase().includes(t) || ...)`. The name operand is evaluated first,
   * so a record without that name makes `toLowerCase` throw: `None` stands for that TypeError.
   */
  function Search(ps: seq<Prescription>, term: string, nameOf: Prescription -> Option<string>): (r: Option<seq<Prescription>>)
    ensures r.None? <==> exists p :: p in ps && nameOf(p).None?
    ensures r.Some? ==> forall p :: p in r.value <==> p in ps && Matches(nameOf(p).value, p, term)
    ensures r.Some? ==> IsSubseq(r.value, ps)
  {
    if |ps| == 0 then Some([])
    else match nameOf(ps[0])
      case None => None
      case Some(name) =>
        match Search(ps[1..], term, nameOf)
          case None => None
          case Some(rest) =>
            assert forall p :: p in ps <==> p == ps[0] || p in ps[1..];
            if Matches(name, ps[0], term) then Some([ps[0]] + rest) else Some(rest)
  }

  /** When every record carries the name, an empty term keeps the whole list. */
  lemma {:induction false} EmptyTermKeepsAll(ps: seq<Prescription>, nameOf: Prescription -> Option<string>)
    requires forall p :: p in ps ==> nameOf(p).Some?
    ensures Search(ps, "", nameOf) == Some(ps)
  {
    if |ps| > 0 {
      assert forall p :: p in ps[1..] ==> p in ps;
      EmptyTermKeepsAll(ps[1..], nameOf);
      assert ps[0] in ps;
      EmptyIncluded(ToLower(nameOf(ps[0]).value));
      assert Matches(nameOf(ps[0]).value, ps[0], "");
      assert [ps[0]] + ps[1..] == ps;
    }
  }

  /** `sortedPrescriptions`: the search result newest first, or the TypeError. */
  function Listed(ps: seq<Prescription>, term: string, nameOf: Prescription -> Option<string>): (r: Option<seq<Prescription>>)
    ensures r.None? <==> exists p :: p in ps && nameOf(p).None?
    ensures r.Some? ==> forall p :: p in r.value <==> p in ps && Matches(nameOf(p).value, p, term)
    ensures r.Some? ==> forall i, j :: 0 <= i < j < |r.value| ==> r.value[i].createdAt >= r.value[j].createdAt
    ensures r.Some? ==> multiset(r.value) == multiset(Search(ps, term, nameOf).value)
  {
    match Search(ps, term, nameOf)
      case None => None
      case Some(found) => Some(NewestFirst(found))
  }
}

=== FILE: protected_route.dfy ===
/** The route guard: who may see a page, and where everyone else is sent. */
module ProtectedRoute {
  import opened Wrappers
  import opened Types

  /** What a route element does: render its page, or navigate elsewhere (with `replace`). */
  datatype Outcome = Render | Redirect(to: string)

  /** The dashboard a signed-in user is sent to when a page is not for their role. */
  function RoleHome(role: string): (path: string)
    ensures role == "admin" ==> path == "/admin"
    ensures role == "doctor" ==> path == "/doctor"
    ensures role == "patient" ==> path == "/patient"
    ensures role !in {"admin", "doctor", "patient"} ==> path == "/login"
  {
    match role
      case "admin" => "/admin"
      case "doctor" => "/doctor"
      case "patient" => "/patient"
      case _ => "/login"
  }

  /** `ProtectedRoute`: nobody signed in goes to login; a role outside `allowedRoles` goes to its own dashboard. */
  function Guard(user: Option<User>, allowedRoles: Option<seq<string>>): (o: Outcome)
    ensures user.None? ==> o == Redirect("/login")
    ensures user.Some? && (allowedRoles.None? || user.value.role in allowedRoles.value) ==> o == Render
    ensures user.Some? && allowedRoles.Some? && user.value.role !in allowedRoles.value ==> o == Redirect(RoleHome(user.value.role))
  {
    if user.None? then Redirect("/login")
    else if allowedRoles.Some? && user.value.role !in allowedRoles.value then Redirect(RoleHome(user.value.role))
    else Render
  }

  /** A page is shown only to a signed-in user whose role is allowed. */
  lemma RenderOnlyForAllowed(user: Option<User>, allowedRoles: Option<seq<string>>)
    ensures Guard(user, allowedRoles) == Render <==>
      user.Some? && (allowedRoles.None? || user.value.role in allowedRoles.value)
  {
  }
}

=== FILE: seqs.dfy ===
/**
 * Sequence combinators the pages use: `Array.prototype.filter`, `slice(0, n)`,
 * a stable `sort` with a comparator, and the order relations they are judged by.
 */
module Seqs {

  /** `a` can be obtained from `b` by deleting elements, keeping the rest in order. */
  ghost predicate IsSubseq<T>(a: seq<T>, b: seq<T>)
    decreases |b|
  {
    if |a| == 0 then true
    else if |b| == 0 then false
    else (a[0] == b[0] && IsSubseq(a[1..], b[1..])) || IsSubseq(a, b[1..])
  }

  /** `filter`: the elements of `s` satisfying `p`, in their original order. */
  function Filter<T(!new)>(s: seq<T>, p: T -> bool): (r: seq<T>)
    ensures |r| <= |s|
    ensures forall x :: x in r <==> x in s && p(x)
    ensures IsSubseq(r, s)
  {
    if |s| == 0 then []
    else if p(s[0]) then [s[0]] + Filter(s[1..], p)
    else Filter(s[1..], p)
  }

  /** The positions of `s` whose element satisfies `p`. */
  function Positions<T>(s: seq<T>, p: T -> bool): set<int>
  {
    set i | 0 <= i < |s| && p(s[i])
  }

  /** A filter keeps one element per position whose element passes. */
  lemma {:induction false} FilterLengthIsIndexCount<T(!new)>(s: seq<T>, p: T -> bool)
    ensures |Filter(s, p)| == |Positions(s, p)|
    decreases |s|
  {
    if |s| > 0 {
      var n := |s| - 1;
      var front := s[..n];
      FilterLengthIsIndexCount(front, p);
      assert front + [s[n]] == s;
      FilterConcat(front, [s[n]], p);
      assert [s[n]][1..] == [];
      assert |Filter([s[n]], p)| == if p(s[n]) then 1 else 0;
      PositionsOfPrefix(s, p);
    }
  }

  /** The passing positions of `s` are those of its front plus, when it passes, the last one. */
  lemma PositionsOfPrefix<T>(s: seq<T>, p: T -> bool)
    requires |s| > 0
    ensures var n := |s| - 1;
      |Positions(s, p)| == |Positions(s[..n], p)| + (if p(s[n]) then 1 else 0)
  {
    var n := |s| - 1;
    var before := Positions(s[..n], p);
    var all := Positions(s, p);
    var last: set<int> := if p(s[n]) then {n} else {};
    forall i | i in all
      ensures i in before + last
    {
      if i < n {
        assert s[..n][i] == s[i];
      }
    }
    forall i | i in before + last
      ensures i in all
    {
      if i < n {
        assert s[..n][i] == s[i];
      }
    }
    assert all == before + last;
    assert n !in before;
  }

  /** Filtering a concatenation filters each part. */
  lemma {:induction false} FilterConcat<T(!new)>(a: seq<T>, b: seq<T>, p: T -> bool)
    ensures Filter(a + b, p) == Filter(a, p) + Filter(b, p)
    decreases |a|
  {
    if |a| == 0 {
      assert a + b == b;
    } else {
      assert (a + b)[0] == a[0];
      assert (a + b)[1..] == a[1..] + b;
      FilterConcat(a[1..], b, p);
    }
  }

  /** `slice(0, n)`: the first `n` elements, or all of them when there are fewer. */
  function Take<T>(s: seq<T>, n: nat): (r: seq<T>)
    ensures |r| == if n <= |s| then n else |s|
    ensures r <= s
    ensures multiset(r) <= multiset(s)
  {
    if n <= |s| then
      assert s == s[..n] + s[n..];
      s[..n]
    else s
  }

  /** `le` is total and transitive, so sorting by it is meaningful. */
  ghost predicate TotalPreorder<T(!new)>(le: (T, T) -> bool)
  {
    && (forall a, b :: le(a, b) || le(b, a))
    && (forall a, b, c :: le(a, b) && le(b, c) ==> le(a, c))
  }

  /** Every element is `le` every later element. */
  predicate SortedBy<T>(s: seq<T>, le: (T, T) -> bool)
  {
    forall i, j :: 0 <= i < j < |s| ==> le(s[i], s[j])
  }

  /** Inserts `x` in front of the first element it is `le`. */
  function Insert<T>(x: T, s: seq<T>, le: (T, T) -> bool): (r: seq<T>)
    ensures multiset(r) == multiset(s) + multiset{x}
  {
    if |s| == 0 then [x]
    else if le(x, s[0]) then [x] + s
    else
      assert s == [s[0]] + s[1..];
      [s[0]] + Insert(x, s[1..], le)
  }

  /** Inserting into a sorted sequence keeps it sorted. */
  lemma {:induction false} InsertSorted<T(!new)>(x: T, s: seq<T>, le: (T, T) -> bool)
    requires TotalPreorder(le)
    requires SortedBy(s, le)
    ensures SortedBy(Insert(x, s, le), le)
  {
    if |s| > 0 && !le(x, s[0]) {
      var t := Insert(x, s[1..], le);
      InsertSorted(x, s[1..], le);
      assert le(s[0], x);
      forall j | 0 <= j < |t|
        ensures le(s[0], t[j])
      {
        assert t[j] in multiset(t);
        if t[j] != x {
          assert t[j] in multiset(s[1..]);
          var k :| 0 <= k < |s[1..]| && s[1..][k] == t[j];
          assert s[k + 1] == t[j];
        }
      }
    }
  }

  /**
   * `sort` with a comparator: an insertion sort that places each element in front
   * of the elements it ties with, so equal elements keep their relative order.
   */
  function SortBy<T(!new)>(s: seq<T>, le: (T, T) -> bool): (r: seq<T>)
    requires TotalPreorder(le)
    ensures SortedBy(r, le)
    ensures multiset(r) == multiset(s)
    ensures |r| == |s|
  {
    if |s| == 0 then []
    else
      var rest := SortBy(s[1..], le);
      InsertSorted(s[0], rest, le);
      assert s == [s[0]] + s[1..];
      var r := Insert(s[0], rest, le);
      assert |r| == |multiset(r)|;
      r
  }

  /** Deleting elements is transitive. */
  lemma {:induction false} SubseqTrans<T>(a: seq<T>, b: seq<T>, c: seq<T>)
    requires IsSubseq(a, b) && IsSubseq(b, c)
    ensures IsSubseq(a, c)
    decreases |c|
  {
    if |a| == 0 {
    } else if b[0] == c[0] && IsSubseq(b[1..], c[1..]) {
      if a[0] == b[0] && IsSubseq(a[1..], b[1..]) {
        SubseqTrans(a[1..], b[1..], c[1..]);
      } else {
        SubseqTrans(a, b[1..], c[1..]);
      }
    } else {
      SubseqTrans(a, b, c[1..]);
    }
  }

  /** A filter keeps every element exactly when every element satisfies the predicate. */
  lemma {:induction false} FilterKeepsAll<T(!new)>(s: seq<T>, p: T -> bool)
    ensures (forall x :: x in s ==> p(x)) <==> Filter(s, p) == s
  {
    if |s| > 0 {
      FilterKeepsAll(s[1..], p);
      if Filter(s, p) == s {
        assert forall x :: x in s ==> x in Filter(s, p);
      }
    }
  }

  /** Filters by predicates that agree everywhere give the same result. */
  lemma {:induction false} FilterExt<T(!new)>(s: seq<T>, p: T -> bool, q: T -> bool)
    requires forall x :: p(x) == q(x)
    ensures Filter(s, p) == Filter(s, q)
  {
    if |s| > 0 {
      FilterExt(s[1..], p, q);
    }
  }

  /** Every sequence is a subsequence of itself. */
  lemma {:induction false} SubseqRefl<T>(s: seq<T>)
    ensures IsSubseq(s, s)
  {
    if |s| > 0 {
      SubseqRefl(s[1..]);
    }
  }

  /** A subsequence as long as the whole is the whole. */
  lemma {:induction false} SubseqSameLength<T>(a: seq<T>, b: seq<T>)
    requires IsSubseq(a, b) && |a| == |b|
    ensures a == b
  {
    if |a| > 0 {
      if a[0] == b[0] && IsSubseq(a[1..], b[1..]) {
        SubseqSameLength(a[1..], b[1..]);
        assert a == [a[0]] + a[1..] && b == [b[0]] + b[1..];
      } else {
        SubseqLength(a, b[1..]);
      }
    }
  }

  /** A subsequence is no longer than the whole. */
  lemma {:induction false} SubseqLength<T>(a: seq<T>, b: seq<T>)
    requires IsSubseq(a, b)
    ensures |a| <= |b|
    decreases |b|
  {
    if |a| > 0 {
      if a[0] == b[0] && IsSubseq(a[1..], b[1..]) {
        SubseqLength(a[1..], b[1..]);
      } else {
        SubseqLength(a, b[1..]);
      }
    }
  }

  /** A filter keeps its whole input exactly when every element passes. */
  lemma FilterFullIffAll<T(!new)>(s: seq<T>, p: T -> bool)
    ensures |Filter(s, p)| == |s| <==> forall x :: x in s ==> p(x)
  {
    FilterKeepsAll(s, p);
    if |Filter(s, p)| == |s| {
      SubseqSameLength(Filter(s, p), s);
    }
  }

  /** Sorting keeps exactly the same elements. */
  lemma SortByMembers<T(!new)>(s: seq<T>, le: (T, T) -> bool)
    requires TotalPreorder(le)
    ensures forall x :: x in SortBy(s, le) <==> x in s
  {
    var r := SortBy(s, le);
    forall x
      ensures x in r <==> x in s
    {
      assert x in r <==> x in multiset(r);
      assert x in s <==> x in multiset(s);
    }
  }

  /** The first `n` of a sorted sequence come no later, by `le`, than anything left out. */
  lemma SortedPrefixDominates<T(!new)>(s: seq<T>, le: (T, T) -> bool, n: nat, x: T, y: T)
    requires TotalPreorder(le)
    requires x in Take(SortBy(s, le), n)
    requires y in s && y !in Take(SortBy(s, le), n)
    ensures le(x, y)
  {
    var sorted := SortBy(s, le);
    SortByMembers(s, le);
    var r := Take(sorted, n);
    assert r == sorted[..|r|];
    var i :| 0 <= i < |r| && r[i] == x;
    var j :| 0 <= j < |sorted| && sorted[j] == y;
    assert le(sorted[i], sorted[j]);
  }

  lemma FilterSubseq<T(!new)>(s: seq<T>, p: T -> bool)
    ensures IsSubseq(Filter(s, p), s)
  {
  }

  /** Filtering by `p` first changes nothing when `q` already implies `p`. */
  lemma {:induction false} FilterNarrower<T(!new)>(s: seq<T>, p: T -> bool, q: T -> bool)
    requires forall x :: q(x) ==> p(x)
    ensures Filter(Filter(s, p), q) == Filter(s, q)
  {
    if |s| > 0 {
      FilterNarrower(s[1..], p, q);
      if p(s[0]) {
        assert Filter(s, p) == [s[0]] + Filter(s[1..], p);
        assert ([s[0]] + Filter(s[1..], p))[1..] == Filter(s[1..], p);
      }
    }
  }

  /** Filtering by a predicate and by its negation splits the sequence: the two lengths add up to the whole. */
  lemma {:induction false} FilterPartition<T(!new)>(s: seq<T>, p: T -> bool, q: T -> bool)
    requires forall x :: q(x) == !p(x)
    ensures |Filter(s, p)| + |Filter(s, q)| == |s|
  {
    if |s| > 0 {
      FilterPartition(s[1..], p, q);
    }
  }

  /** On what `p` keeps, predicates that agree there filter alike. */
  lemma {:induction false} FilterAgreeOnFiltered<T(!new)>(s: seq<T>, p: T -> bool, q: T -> bool, q': T -> bool)
    requires forall x :: p(x) ==> q(x) == q'(x)
    ensures Filter(Filter(s, p), q) == Filter(Filter(s, p), q')
  {
    if |s| > 0 {
      FilterAgreeOnFiltered(s[1..], p, q, q');
      if p(s[0]) {
        assert Filter(s, p) == [s[0]] + Filter(s[1..], p);
        assert ([s[0]] + Filter(s[1..], p))[1..] == Filter(s[1..], p);
      }
    }
  }
}

=== FILE: text.dfy ===
/**
 * The string operations the pages rely on: `trim`, `toLowerCase`, `includes`,
 * `split`, `localeCompare` on time strings, and the decimal rendering and
 * `parseInt` reading of hour numbers.
 */
module Text {

  /** The characters JavaScript's `String.prototype.trim` strips. */
  predicate IsWhitespace(c: char)
  {
    || c == ' ' || c == '\t' || c == '\n' || c == '\r' || c == '\U{000B}' || c == '\U{000C}'
    || c == '\U{00A0}' || c == '\U{1680}' || ('\U{2000}' <= c <= '\U{200A}')
    || c == '\U{2028}' || c == '\U{2029}' || c == '\U{202F}' || c == '\U{205F}'
    || c == '\U{3000}' || c == '\U{FEFF}'
  }

  /** Drops leading whitespace. */
  function TrimStart(s: string): (r: string)
    ensures |r| <= |s| && r == s[|s| - |r|..]
    ensures |r| > 0 ==> !IsWhitespace(r[0])
    ensures forall i :: 0 <= i < |s| - |r| ==> IsWhitespace(s[i])
  {
    if |s| > 0 && IsWhitespace(s[0]) then TrimStart(s[1..]) else s
  }

  /** Drops trailing whitespace. */
  function TrimEnd(s: string): (r: string)
    ensures |r| <= |s| && r == s[..|r|]
    ensures |r| > 0 ==> !IsWhitespace(r[|r| - 1])
    ensures forall i :: |r| <= i < |s| ==> IsWhitespace(s[i])
  {
    if |s| > 0 && IsWhitespace(s[|s| - 1]) then TrimEnd(s[..|s| - 1]) else s
  }

  /** `r` occurs in `s` at `k`, and everything before and after that occurrence is whitespace. */
  ghost predicate StrippedAt(s: string, r: string, k: int)
  {
    && OccursAt(s, r, k)
    && (forall i :: 0 <= i < k ==> IsWhitespace(s[i]))
    && (forall i :: k + |r| <= i < |s| ==> IsWhitespace(s[i]))
  }

  /** `s.trim()`: the piece of `s` left once the whitespace at both ends is stripped. */
  function Trim(s: string): (r: string)
    ensures exists k :: StrippedAt(s, r, k)
    ensures |r| > 0 ==> !IsWhitespace(r[0]) && !IsWhitespace(r[|r| - 1])
    ensures r == "" <==> forall i :: 0 <= i < |s| ==> IsWhitespace(s[i])
  {
    var t := TrimStart(s);
    TrimStartThenEnd(s);
    assert StrippedAt(s, TrimEnd(t), |s| - |t|);
    assert |t| > 0 ==> !IsWhitespace(t[0]) && t[0] == s[|s| - |t|];
    assert |t| > 0 ==> |TrimEnd(t)| > 0;
    TrimEnd(t)
  }

  /** Stripping the front and then the back leaves a piece of `s` with only whitespace around it. */
  lemma TrimStartThenEnd(s: string)
    ensures var t := TrimStart(s); StrippedAt(s, TrimEnd(t), |s| - |t|)
  {
    var t := TrimStart(s);
    var r := TrimEnd(t);
    assert |t| <= |s| && t == s[|s| - |t|..];
    assert |r| <= |t| && r == t[..|r|];
    PrefixOfSuffix(s, t, r);
  }

  /** A front piece `r` of a back piece `t` of `s`, cut off by whitespace on both sides, is stripped in `s`. */
  lemma PrefixOfSuffix(s: string, t: string, r: string)
    requires |t| <= |s| && t == s[|s| - |t|..]
    requires |r| <= |t| && r == t[..|r|]
    requires forall i :: 0 <= i < |s| - |t| ==> IsWhitespace(s[i])
    requires forall i :: |r| <= i < |t| ==> IsWhitespace(t[i])
    ensures StrippedAt(s, r, |s| - |t|)
  {
    var k := |s| - |t|;
    forall j | 0 <= j < |r|
      ensures s[k..k + |r|][j] == r[j]
    {
      assert r[j] == t[j] == s[k + j];
    }
    assert s[k..k + |r|] == r;
    forall i | k + |r| <= i < |s|
      ensures IsWhitespace(s[i])
    {
      assert s[i] == t[i - k];
    }
  }

  /** `!s.trim()`: the text is empty once trimmed. */
  predicate IsBlank(s: string)
  {
    Trim(s) == ""
  }

  /** A string is blank exactly when all of its characters are whitespace. */
  lemma BlankIffAllWhitespace(s: string)
    ensures IsBlank(s) <==> forall i :: 0 <= i < |s| ==> IsWhitespace(s[i])
  {
    var t := TrimStart(s);
    if |t| > 0 {
      assert !IsWhitespace(t[0]);
      assert |TrimEnd(t)| > 0;
      assert t[0] == s[|s| - |t|];
    }
  }

  /** `toLowerCase` on one character (ASCII letters only). */
  function LowerChar(c: char): char
  {
    if 'A' <= c <= 'Z' then (c as int + 32) as char else c
  }

  /** `s.toLowerCase()` (ASCII letters only). */
  function ToLower(s: string): (r: string)
    ensures |r| == |s|
    ensures forall i :: 0 <= i < |s| ==> r[i] == LowerChar(s[i])
  {
    if |s| == 0 then "" else [LowerChar(s[0])] + ToLower(s[1..])
  }

  /** `hay.includes(needle)`: `needle` occurs as a contiguous block of `hay`. */
  predicate Includes(hay: string, needle: string)
    decreases |hay|
  {
    needle <= hay || (|hay| > 0 && Includes(hay[1..], needle))
  }

  /** `needle` occurs in `hay` starting at position `i`. */
  ghost predicate OccursAt(hay: string, needle: string, i: int)
  {
    0 <= i <= |hay| - |needle| && hay[i..i + |needle|] == needle
  }

  /** `Includes` means: some position of `hay` starts a copy of `needle`. */
  lemma {:induction false} IncludesIffOccurs(hay: string, needle: string)
    ensures Includes(hay, needle) <==> exists i :: OccursAt(hay, needle, i)
    decreases |hay|
  {
    if needle <= hay {
      assert OccursAt(hay, needle, 0);
    } else if |hay| > 0 {
      IncludesIffOccurs(hay[1..], needle);
      if Includes(hay[1..], needle) {
        var i :| OccursAt(hay[1..], needle, i);
        assert hay[i + 1..i + 1 + |needle|] == hay[1..][i..i + |needle|];
        assert OccursAt(hay, needle, i + 1);
      }
      if exists i :: OccursAt(hay, needle, i) {
        var i :| OccursAt(hay, needle, i);
        assert i != 0;
        assert hay[1..][i - 1..i - 1 + |needle|] == hay[i..i + |needle|];
        assert OccursAt(hay[1..], needle, i - 1);
      }
    }
  }

  /** The empty search term occurs in every text. */
  lemma EmptyIncluded(hay: string)
    ensures Includes(hay, "")
  {
  }

  /** `a.toLowerCase().includes(b.toLowerCase())`, the pages' case-insensitive search. */
  predicate IncludesIgnoringCase(hay: string, needle: string)
  {
    Includes(ToLower(hay), ToLower(needle))
  }

  /** Number of occurrences of `c` in `s`. */
  function Occurrences(s: string, c: char): nat
  {
    if |s| == 0 then 0 else (if s[0] == c then 1 else 0) + Occurrences(s[1..], c)
  }

  /** `s.split(sep)` for a one-character separator. */
  function Split(s: string, sep: char): (r: seq<string>)
    ensures |r| == Occurrences(s, sep) + 1
    ensures forall k :: 0 <= k < |r| ==> sep !in r[k]
  {
    if |s| == 0 then [""]
    else if s[0] == sep then [""] + Split(s[1..], sep)
    else
      var t := Split(s[1..], sep);
      [[s[0]] + t[0]] + t[1..]
  }

  /** `parts.join(sep)`. */
  function Join(parts: seq<string>, sep: char): string
  {
    if |parts| == 0 then ""
    else if |parts| == 1 then parts[0]
    else parts[0] + [sep] + Join(parts[1..], sep)
  }

  /** Splitting and joining again gives the original text back. */
  lemma {:induction false} JoinSplit(s: string, sep: char)
    ensures Join(Split(s, sep), sep) == s
  {
    if |s| > 0 {
      JoinSplit(s[1..], sep);
      var t := Split(s[1..], sep);
      if s[0] == sep {
        assert Split(s, sep)[1..] == t;
      } else {
        var u := Split(s, sep);
        assert u[0] == [s[0]] + t[0];
        if |t| > 1 {
          assert u[1..] == t[1..];
        }
      }
    }
  }

  /** Code-unit order on strings; `localeCompare` agrees with it on digit-and-colon time strings. */
  predicate StrLe(a: string, b: string)
  {
    if |a| == 0 then true
    else if |b| == 0 then false
    else a[0] < b[0] || (a[0] == b[0] && StrLe(a[1..], b[1..]))
  }

  lemma {:induction false} StrLeTotal(a: string, b: string)
    ensures StrLe(a, b) || StrLe(b, a)
  {
    if |a| > 0 && |b| > 0 && a[0] == b[0] {
      StrLeTotal(a[1..], b[1..]);
    }
  }

  lemma {:induction false} StrLeTrans(a: string, b: string, c: string)
    requires StrLe(a, b) && StrLe(b, c)
    ensures StrLe(a, c)
  {
    if |a| > 0 && |b| > 0 && |c| > 0 && a[0] == b[0] && b[0] == c[0] {
      StrLeTrans(a[1..], b[1..], c[1..]);
    }
  }

  /** The decimal digit character for `d`. */
  function DigitChar(d: nat): char
    requires d < 10
  {
    ('0' as int + d) as char
  }

  predicate IsDigit(c: char)
  {
    '0' <= c <= '9'
  }

  /** `n.toString()` for a natural number. */
  function NatToString(n: nat): (r: string)
    ensures |r| > 0
    ensures forall i :: 0 <= i < |r| ==> IsDigit(r[i])
  {
    if n < 10 then [DigitChar(n)] else NatToString(n / 10) + [DigitChar(n % 10)]
  }

  /** The value of a string of decimal digits. */
  function DigitsValue(s: string): nat
    requires forall i :: 0 <= i < |s| ==> IsDigit(s[i])
  {
    if |s| == 0 then 0
    else
      assert IsDigit(s[|s| - 1]);
      DigitsValue(s[..|s| - 1]) * 10 + (s[|s| - 1] as int - '0' as int)
  }

  /** Reading back a rendered number gives the number. */
  lemma {:induction false} DigitsValueOfNatToString(n: nat)
    ensures DigitsValue(NatToString(n)) == n
  {
    if n >= 10 {
      DigitsValueOfNatToString(n / 10);
      var s := NatToString(n);
      assert s[..|s| - 1] == NatToString(n / 10);
    }
  }

  /** The longest prefix of `s` made of decimal digits. */
  function LeadingDigits(s: string): (r: string)
    ensures r <= s
    ensures forall i :: 0 <= i < |r| ==> IsDigit(r[i])
    ensures |r| < |s| ==> !IsDigit(s[|r|])
  {
    if |s| > 0 && IsDigit(s[0]) then [s[0]] + LeadingDigits(s[1..]) else ""
  }

  /** `s.split(':')[0]`: the text before the first colon. */
  function BeforeColon(s: string): (r: string)
    ensures r <= s
    ensures ':' !in r
    ensures |r| < |s| ==> s[|r|] == ':'
  {
    if |s| == 0 || s[0] == ':' then "" else [s[0]] + BeforeColon(s[1..])
  }
}

=== FILE: types.dfy ===
/**
 * The records of the portal (users, doctors, time slots, appointments,
 * prescriptions), the closed enumerations behind their string fields, and
 * the calendar conventions the pages share.
 */
module Types {
  import opened Wrappers

  /** The five appointment statuses. */
  datatype Status = Pending | Confirmed | Rejected | Cancelled | Completed

  /** The string stored for a status, also the key of the status filter buttons. */
  function StatusName(s: Status): string
  {
    match s
    case Pending => "pending"
    case Confirmed => "confirmed"
    case Rejected => "rejected"
    case Cancelled => "cancelled"
    case Completed => "completed"
  }

  /** The status a stored string denotes, if any. */
  function ParseStatus(name: string): (r: Option<Status>)
    ensures r.Some? ==> StatusName(r.value) == name
  {
    if name == "pending" then Some(Pending)
    else if name == "confirmed" then Some(Confirmed)
    else if name == "rejected" then Some(Rejected)
    else if name == "cancelled" then Some(Cancelled)
    else if name == "completed" then Some(Completed)
    else None
  }

  /** Every status name reads back as that status, so names are distinct. */
  lemma StatusNameRoundTrip(s: Status)
    ensures ParseStatus(StatusName(s)) == Some(s)
  {
  }

  /** No status is called "all", the key of the unfiltered view. */
  lemma NoStatusIsAll(s: Status)
    ensures StatusName(s) != "all"
  {
  }

  /** Statuses from which no page offers a status change. */
  predicate IsTerminal(s: Status)
  {
    s == Rejected || s == Cancelled || s == Completed
  }

  /** The three roles a signed-in user can have. */
  datatype Role = Admin | DoctorRole | PatientRole

  function RoleName(r: Role): string
  {
    match r
    case Admin => "admin"
    case DoctorRole => "doctor"
    case PatientRole => "patient"
  }

  /** A recurring weekly availability entry; the times are "HH:MM" strings as entered. */
  datatype TimeSlot = TimeSlot(day: string, startTime: string, endTime: string)

  /**
   * A user as the session holds it. The role is a string because registration
   * accepts arbitrary form data; timestamps are milliseconds.
   */
  datatype User = User(id: string, email: string, name: string, phone: string, role: string, createdAt: int)

  /** A doctor profile; leave days are day numbers (see `DayOfWeek`). */
  datatype Doctor = Doctor(
    id: string, email: string, name: string, phone: string,
    specialization: string, experience: int,
    availability: seq<TimeSlot>, leaveDays: seq<int>,
    isActive: bool, createdAt: int)

  /** An appointment; `date` is a day number and `time` the "HH:MM" string chosen at booking. */
  datatype Appointment = Appointment(
    id: string, patientId: string, doctorId: string,
    patientName: string, doctorName: string, doctorSpecialization: string,
    date: int, time: string, status: Status, reason: string, createdAt: int)

  /**
   * A prescription. The names are optional because the doctor's creation form
   * stores a record without them (see `DoctorPrescriptions.Submit`).
   */
  datatype Prescription = Prescription(
    id: string, appointmentId: string, patientId: string, doctorId: string,
    patientName: Option<string>, doctorName: Option<string>,
    medications: string, instructions: string, createdAt: int)

  datatype Weekday = Monday | Tuesday | Wednesday | Thursday | Friday | Saturday | Sunday

  /** The weekday of day number `d`, day 0 being Thursday 1 January 1970. */
  function DayOfWeek(d: int): (w: Weekday)
    ensures w == Thursday <==> d % 7 == 0
    ensures w == Saturday || w == Sunday <==> d % 7 == 2 || d % 7 == 3
  {
    match d % 7
    case 0 => Thursday
    case 1 => Friday
    case 2 => Saturday
    case 3 => Sunday
    case 4 => Monday
    case 5 => Tuesday
    case _ => Wednesday
  }

  /** The English weekday name (`format(date, 'EEEE')`), as stored in `TimeSlot.day`. */
  function WeekdayName(w: Weekday): (name: string)
    ensures name in ["Monday", "Tuesday", "Wednesday", "Thursday", "Friday", "Saturday", "Sunday"]
  {
    match w
    case Monday => "Monday"
    case Tuesday => "Tuesday"
    case Wednesday => "Wednesday"
    case Thursday => "Thursday"
    case Friday => "Friday"
    case Saturday => "Saturday"
    case Sunday => "Sunday"
  }

  /** Different weekdays have different names, so a slot's day names one weekday. */
  lemma WeekdayNamesDistinct(v: Weekday, w: Weekday)
    ensures WeekdayName(v) == WeekdayName(w) <==> v == w
  {
  }

  /** `isWeekend`. */
  predicate IsWeekend(d: int)
  {
    DayOfWeek(d) == Saturday || DayOfWeek(d) == Sunday
  }

  /** Seven consecutive days carry seven different weekdays, so the weekday repeats weekly. */
  lemma WeekdayRepeatsWeekly(d: int)
    ensures DayOfWeek(d + 7) == DayOfWeek(d)
    ensures DayOfWeek(d + 1) != DayOfWeek(d)
  {
  }

  const DayMs: nat := 86400000

  /** The clock reading `new Date()`: a day number and the milliseconds elapsed in it. */
  datatype Clock = Clock(today: int, msOfDay: nat)
  {
    predicate Valid()
    {
      msOfDay < DayMs
    }

    /** `new Date().getTime()`. */
    function Instant(): int
    {
      today * DayMs + msOfDay
    }
  }

  /** `new Date(date).getTime()` for a "yyyy-MM-dd" date: its midnight. */
  function Midnight(date: int): int
  {
    date * DayMs
  }

  /** `new Date(date) <= new Date()` is "the date is today or earlier". */
  lemma NotAfterNow(date: int, clock: Clock)
    requires clock.Valid()
    ensures Midnight(date) <= clock.Instant() <==> date <= clock.today
  {
    if date > clock.today {
      assert Midnight(date) >= (clock.today + 1) * DayMs;
    }
  }

  /**
   * `new Date(date) >= new Date()` is "the date is later than today", or today
   * when the clock reads exactly midnight.
   */
  lemma NotBeforeNow(date: int, clock: Clock)
    requires clock.Valid()
    ensures Midnight(date) >= clock.Instant() <==>
            date > clock.today || (date == clock.today && clock.msOfDay == 0)
  {
    if date < clock.today {
      assert Midnight(date) <= (clock.today - 1) * DayMs;
    } else if date > clock.today {
      assert Midnight(date) >= (clock.today + 1) * DayMs;
    }
  }
}

=== FILE: wrappers.dfy ===
/** Failure-compatible wrappers used across the model. */
module Wrappers {

  /** A value that may be absent: JavaScript's `undefined`/`null` or a failed `find`. */
  datatype Option<+T> = None | Some(value: T) {

    /** The wrapped value, or `default` when absent (JavaScript's `x || default` on strings). */
    function GetOr(default: T): T
    {
      match this
      case Some(v) => v
      case None => default
    }
  }

  /** The outcome of an operation that can be refused with an error value. */
  datatype Result<+R, +E> = Success(value: R) | Failure(error: E)
}
